=== FILE: README.md ===
# checkers-ai in Dafny

A model of the core of a small checkers engine and its game driver.
- **Board.** The board is three 32-bit bitboards (`black`, `white`, `kings`) and a side to move. Bit i stands for dark square i.
- **Move finding.** `get_moves(side)` computes the set of the mover's pieces that have an empty diagonal step. It does this with shifts by 3, 4 and 5, guarded by four edge masks.
- **Search.** The search is a fail-soft alpha-beta minimax. A root scorer returns one score per move and an `unexplored` flag. An iterative-deepening driver re-orders the moves by score between depths and stops when the tree is fully explored, when time runs out, or when there is only one move.
- **Evaluation.** The static evaluation has a middle-game and an endgame formula, a tempo bonus, and a sign flip for the side the search plays. The endgame formula includes the total distance between the two colours' pieces.
- **Game rules.** The driver supplies these rules:
  - which answers `prompt` and `prompt_list` accept;
  - how a custom starting board is built;
  - the draw test;
  - who is announced as the winner.

Modules:
- `Bits` (bits.dfy): 32-bit sets of squares, membership, popcount, and the int32 arithmetic shift.
- `Bitboard` (bitboard.dfy): square numbering, edge masks, construction, and `get_moves`.
- `Evaluation` (evaluation.dfy): `evaluate` and `total_distance`.
- `AlphaBeta` (alphabeta.dfy): reference minimax, `max_value`, `min_value`, and the root scorer `minimax`.
- `Deepening` (deepening.dfy): argmax, re-ordering, and `ids`.
- `GameRules` (gamerules.dfy): `prompt`, `prompt_list`, the custom board, `is_draw`, and the winner.

The search runs over a finite game tree, `Tree = Node(score, children)`. The program's tree need not be finite, because kings can step back and forth; see "## Left out".
- A node's children are the positions its moves lead to, in move order.
- A node's `score` is what `evaluate` gives that position for the root side.
- The board operations that the search calls, but that are not part of this model, become the tree's shape: `get_moves()` with no argument, `get_state`, and `make_move`.
- Python's infinite floats become the `Bound` datatype.
- The search's `self.unexplored` field becomes an extra boolean in each result.

Scores are integers in quarter points. The source mixes half points, because a king counts 1.5, with products of halves. So its +3 tempo is +12 here.

## Model

| member | source | states |
|---|---|---|
| Bitboard.SquareNumberingBijective | checkers.py:61-67 | `(row*8+col)//2` maps each dark cell (row+col odd) to a square 0..31, and every square comes from exactly one dark cell |
| Bitboard.EdgeMasksMatchGeometry | checkers.py:8-18 | each of MASK_L3, MASK_L5, MASK_R3, MASK_R5 holds exactly the squares whose +3, +5, -3 or -5 neighbour index is on the board and diagonally adjacent |
| Bitboard.DiagonalSteps | checkers.py:8-18 | the diagonal neighbours of a square are exactly the ±4 steps that stay on the board plus the ±3/±5 steps its masks allow, so no step wraps across a row |
| Bitboard.Initial | checkers.py:25-29 | the initial position has disjoint colours, its kings among black's pieces, and black to move |
| Bitboard.InitialSquares | checkers.py:26-28 | initially black holds squares 0..11 and 16, white holds 20..31, and the one king stands on 16 |
| Bitboard.NewBitboard | checkers.py:20-29 | the copy constructor keeps black, white and kings; without a preset the board is the initial position; the side is black either way |
| Bitboard.CopyResetsSide | checkers.py:21-29 | a copy equals its preset exactly when black was to move in it, and copying a copy changes nothing |
| Bitboard.Generator | checkers.py:31-50 | `get_moves` with the kind of right shift as a parameter; no contract of its own; characterised by GeneratorCharacterised, GetMoves and Movables |
| Bitboard.GetMoves | checkers.py:31-50 | the movable set is a subset of the mover's own pieces |
| Bitboard.BlackMovesExact | checkers.py:33-41 | on squares 0..27, a black piece is reported iff it has an empty diagonal neighbour in a direction it may move (men up only, kings both ways) |
| Bitboard.WhiteMovesExact | checkers.py:42-50 | for white men everywhere and white kings on 0..27, a piece is reported iff it has an empty diagonal neighbour it may move to |
| Bitboard.BlackMovesBits | checkers.py:34-40 | a black man is movable iff i+4 is empty, or it is in MASK_L3 and i+3 is empty, or it is in MASK_L5 and i+5 is empty; only kings also use the -4, -3 and -5 steps |
| Bitboard.WhiteMovesBits | checkers.py:43-49 | a white man is movable iff i-4 is empty and i >= 4, or it is in MASK_R3 with i-3 empty, or in MASK_R5 with i-5 empty; only kings also use the +4, +3 and +5 steps |
| Bitboard.WhiteMenStuckOnLastRow | checkers.py:44-46 | a white man on squares 0..3 is never movable |
| Bitboard.SignExtensionCounterexample | checkers.py:47-49 | a white king on 28 whose one neighbour 24 is occupied is still reported, because the int32 right shift copies empty square 31 into bit 28 |
| Bitboard.Movables | checkers.py:31-50 | the generator with logical shifts also returns only the mover's own pieces |
| Bitboard.MovablesExact | checkers.py:31-50 | with logical shifts the generator is exact on every square, for both sides |
| Bitboard.GeneratorCharacterised | checkers.py:31-50 | the six shift-and-mask terms together report a square iff an own piece there has an empty diagonal neighbour in a permitted direction |
| Bits.ArithShiftRight | checkers.py:47-49 | the int32 `>>` of get_moves; no contract of its own; characterised by SignExtensionCounterexample, and through Generator by BlackMovesExact and WhiteMovesExact |
| Bits.PopCount | ai.py:121-122 | `count_bits`, whose definition is not part of this model; no contract of its own; characterised by PopCountZero and PopCountOne |
| Bits.PopCountOne | game.py:77-78 | `count_bits(x) == 1` exactly when x holds a single square |
| Evaluation.Evaluate | ai.py:117-172 | `evaluate`; no contract of its own; characterised by EvaluateOrientation, TempoSwing and EndgameAntisymmetric |
| Evaluation.TotalDistance | ai.py:174-194 | `total_distance` as written; no contract of its own; characterised by TotalDistanceSymmetric, TotalDistanceEmpty, TotalDistanceIndexTest and TotalDistanceMagnitude |
| Evaluation.Magnitude | ai.py:177 | the number whose binary digits `bin()` prints is the absolute value of the int32 word |
| Evaluation.PairSumSymmetric | ai.py:176-194 | the double loop over black and white digits gives the same total with the loops exchanged, when the pair distance is symmetric |
| Evaluation.TotalDistanceSymmetric | ai.py:174-194 | `total_distance(a, b) == total_distance(b, a)` |
| Evaluation.TotalDistanceEmpty | ai.py:174-194 | `total_distance` is 0 when either side has no pieces |
| Evaluation.TotalDistanceIndexTest | ai.py:181-193 | the file test looks at the square index, not its bit, so the diagonal neighbours 0 and 5 come out four apart |
| Evaluation.TotalDistanceMagnitude | ai.py:177-179 | white on 30 and 31 (a negative int32) is measured as white on 30 alone |
| Evaluation.CellOfSquare | ai.py:181-191 | rank `i // 4` and the parity-corrected file agree with the board's row and column of square i |
| Evaluation.DiagonalAtDistanceTwo | ai.py:181-193 | with the file taken from the row parity, any two diagonal neighbours are at grid distance 2 |
| Evaluation.ManhattanTotalSymmetric | ai.py:174-194 | the corrected total distance is symmetric in the two colours |
| Evaluation.ManhattanTotalNeighbours | ai.py:174-194 | the corrected total for neighbours 0 and 5 is 2 |
| Evaluation.ManhattanTotalTopBit | ai.py:177-179 | the corrected total counts the white piece on 31 as well as the one on 30 |
| Evaluation.EvaluateOrientation | ai.py:172 | for either distance, the score is the black-perspective score when the root side is black and its negation otherwise |
| Evaluation.TempoSwing | ai.py:165-169 | for either distance, handing the move to the other side moves the score by exactly 6 points towards the side to move, whatever the position |
| Evaluation.SwapColoursInvolution | ai.py:165-169 | exchanging the colours twice restores the board, and the tempo term changes sign |
| Evaluation.MidgameColourBlind | ai.py:120-126 | the phase test depends only on piece counts, so it ignores which colour is which |
| Evaluation.MaterialAntisymmetric | ai.py:127-133 | the material-and-exchange term changes sign when the colours are exchanged |
| Evaluation.HuntAntisymmetric | ai.py:147-152 | the king-advantage and distance part of the endgame score changes sign when the counts are exchanged |
| Evaluation.DistanceSymmetric | ai.py:174-194 | both the program's `total_distance` and the corrected grid distance are symmetric in the two colours |
| Evaluation.EndgameScoreAntisymmetric | ai.py:145-152 | for either distance, the endgame formula changes sign when the colours are exchanged |
| Evaluation.EndgameAntisymmetric | ai.py:145-172 | for either distance, including the program's `total_distance`, in the endgame the colour-swapped board (other side to move) scores exactly the negation, tempo included |
| Evaluation.AdvancementTerm | ai.py:135-136 | the advancement term as Python parses it; no contract of its own; characterised by AdvancementOneSided |
| Evaluation.CentralTerm | ai.py:138-139 | the central-kings term as Python parses it; no contract of its own and no lemma, as "## Left out" says |
| Evaluation.AdvancementOneSided | ai.py:136 | as Python parses the advancement term, a black man on 12 adds its bit's value 0x1000 times 10 points, while a white man on the mirrored square 19 costs black nothing |
| AlphaBeta.MaxValue | ai.py:83-98 | `max_value`; no contract of its own; characterised by MaxValueSound, MaxValueWindow, FullWindowExact, MaxValueFlagSound and MaxValueStable |
| AlphaBeta.MinValue | ai.py:100-115 | `min_value`; no contract of its own; characterised by MinValueSound, MinValueWindow, FullWindowExact, MinValueFlagSound and MinValueStable |
| AlphaBeta.RootSearch | ai.py:61-81 | the root scorer `minimax`; no contract of its own; characterised by RootFlagSound, RootStable, RootFinal and Deepening.RootMinimax |
| AlphaBeta.MaxValueSound | ai.py:83-98 | for alpha < beta, a max-node result above alpha is at most the minimax value, and a result below beta is at least it |
| AlphaBeta.MinValueSound | ai.py:100-115 | the same fail-soft bounds for a min node |
| AlphaBeta.MaxLoopSound | ai.py:90-98 | the max loop's value never drops below its running value; below beta it bounds every child from above; above alpha and the running value it is attained |
| AlphaBeta.MinLoopSound | ai.py:107-115 | the mirror statement for the min loop |
| AlphaBeta.MaxValueWindow | ai.py:83-98 | a value strictly inside (alpha, beta) is returned exactly; a result at or below alpha is an upper bound; a result at or above beta is a lower bound |
| AlphaBeta.MinValueWindow | ai.py:100-115 | the three window cases for a min node |
| AlphaBeta.FullWindowExact | ai.py:83-115 | with the window (-inf, +inf) both node kinds return the depth-limited minimax value exactly |
| AlphaBeta.MaxValueFlagSound | ai.py:83-98 | a max node raises `unexplored` only if some node within the depth still had moves at depth 0 |
| AlphaBeta.MinValueFlagSound | ai.py:100-115 | the same for a min node |
| AlphaBeta.MaxLoopFlagSound | ai.py:91-98 | the max loop raises the flag only if some child it searched was truncated |
| AlphaBeta.MinLoopFlagSound | ai.py:108-115 | the min loop raises the flag only if some child it searched was truncated |
| AlphaBeta.MaxValueStable | ai.py:83-98 | when a max node's search leaves the flag down, searching one ply deeper gives the same value and flag |
| AlphaBeta.MinValueStable | ai.py:100-115 | the same for a min node |
| AlphaBeta.MaxLoopStable | ai.py:91-98 | the same for the max loop |
| AlphaBeta.MinLoopStable | ai.py:108-115 | the same for the min loop |
| AlphaBeta.DeepEnoughNotTruncated | ai.py:87-89 | a search at least as deep as the tree is high meets no node with moves at depth 0 |
| AlphaBeta.RootLoop | ai.py:70-81 | the root loop always yields a list of scores |
| AlphaBeta.RootLoopUpper | ai.py:70-81 | beta stays +inf at the root, so the loop never breaks: one score per move, in order, each at least its move's minimax value |
| AlphaBeta.RootLoopExact | ai.py:70-81 | a root score that beats alpha and every earlier score equals its move's minimax value |
| AlphaBeta.RootFlagSound | ai.py:63-69 | after the root call the flag is up only if the tree is truncated at that depth, and a root without moves leaves it down |
| AlphaBeta.RootStable | ai.py:63-81 | a root search that leaves the flag down gives the same scores and flag one ply deeper |
| AlphaBeta.RootLoopStable | ai.py:70-81 | the same for the root loop |
| AlphaBeta.RootFinal | ai.py:29-31 | a root search that leaves the flag down gives the same scores and flag at every greater depth, so stopping there loses nothing |
| AlphaBeta.RootLoopFlagSound | ai.py:73-81 | the root loop raises the flag only if some move's subtree is truncated |
| Deepening.Reorder | ai.py:40 | the re-ordering of the moves by descending score; no contract of its own; characterised by ReorderPermutes |
| Deepening.FirstArgmax | ai.py:33 | the selected index holds a maximal score, and every earlier score is strictly smaller |
| Deepening.FirstArgmaxUnique | ai.py:33 | exactly one index satisfies that description |
| Deepening.SortDescendingSorted | ai.py:40 | the score-move pairs come out in non-increasing score order |
| Deepening.SortDescendingPermutes | ai.py:40 | sorting neither loses nor adds a score-move pair |
| Deepening.ReorderPermutes | ai.py:40 | the move list for the next depth is a permutation of the current one, obtained from a non-increasing sort of the pairs |
| Deepening.RootMinimax | ai.py:32-39 | at depth >= 1 the root returns one score per move, each an upper bound on its move's value; the first argmax score is exact and equals the minimax value of the root |
| Deepening.BestMoveAtDepth | ai.py:32-39 | the first best-scored move has the largest depth-limited minimax value among all moves |
| Deepening.TruncatedRootBelowHeight | ai.py:29-31 | if the flag is still up after a depth, then that depth is below the tree height, whatever the move order, so on a finite tree deepening terminates |
| Deepening.SearchDepth | ai.py:31-47 | one deepening pass chooses a best move at that depth, re-orders the moves as a permutation, and reports the root's flag, which can be up only below the tree height |
| Deepening.Ids | ai.py:14-59 | one move: returned without search; no moves or alarm before depth 1: failure; otherwise a move of the list that is best at the last completed depth, and a permutation of the moves whose search at that depth either left the flag up, in which case the loop stopped on the alarm or the half-time test, or left it down and is final: every deeper search gives the same scores and flag |
| GameRules.ParseInt | game.py:105-107 | `int()` on one line of text; no contract of its own; characterised by ParseShowInt |
| GameRules.ListValue | game.py:97 | `sum([2**space for space in spaces])`; no contract of its own; characterised by ListValueBits, ListValueRepeatedSquare and SumMatchesSet |
| GameRules.IsDraw | game.py:70-82 | `is_draw`; no contract of its own; characterised by DrawShape and DrawWhen |
| GameRules.Winner | game.py:53 | `side_names[~self.board.side]`; no contract of its own; characterised by WinnerIsOpponent |
| GameRules.ParseShowInt | game.py:105-109 | `int()` reads back the decimal text of every integer, negative ones included |
| GameRules.Prompt | game.py:102-118 | the answer is the first line that parses as an integer and is accepted; lines are skipped until then; nothing is accepted iff no line is |
| GameRules.PromptOneAnswer | game.py:110-118 | without options, any integer <= 20 (negatives included) is accepted and larger ones rejected; with options, exactly 0 <= selection < len(options) |
| GameRules.PromptSkips | game.py:108-118 | a rejected line has no effect on the answer |
| GameRules.ParseSquares | game.py:90-96 | a line is accepted iff every token is an integer in [0, 32); one bad token rejects the whole line |
| GameRules.PromptList | game.py:87-99 | the result is the sum of 2^s over the first accepted line, and there is none only if no line is accepted |
| GameRules.PromptListEmptyLine | game.py:90-97 | an empty line is accepted and yields 0 |
| GameRules.ListValueBits | game.py:97 | for distinct squares, bit s of the sum is set iff s was listed |
| GameRules.ListValueRepeatedSquare | game.py:97 | a square listed twice is added twice: "3 3" gives the value of square 4 |
| GameRules.SquareSetHas | game.py:97 | the union of the listed squares contains exactly the listed squares, repeated or not |
| GameRules.SquareSetMatchesSum | game.py:97 | for distinct squares, the union and the sum name the same squares |
| GameRules.SumMatchesSet | game.py:97 | for distinct squares below 32, bit s of the sum is set iff s < 32 and s is in the union, so the sum has no bit past 31 |
| GameRules.CustomBoardFromListsAsWritten | game.py:21-27 | when no list repeats a square, the board built from the lists is, bit for bit, the board game.py:27 builds from the three sums: black and white are the sums, kings is `kings & (white \| black)` of the sums, and the side is kept |
| GameRules.KingMask | game.py:27 | a square is in `kings & (white \| black)` iff it was a king and a black or white piece |
| GameRules.CustomBoard | game.py:27 | the custom board keeps black, white and the side, and its kings are the listed kings on occupied squares |
| GameRules.CustomBoardKings | game.py:27 | no king of a custom board is on an empty square, and rebuilding a custom board from its own parts changes nothing |
| GameRules.CustomBoardFromListsKings | game.py:21-27 | on a board built from three lists, a square holds a king iff it was listed as a king and as a black or white piece |
| GameRules.DrawShape | game.py:70-82 | a draw means one king per side, more than one move for the mover, and the mover's king off the centre squares 11, 12, 19, 20 |
| GameRules.DrawWhen | game.py:70-82 | conversely, lone kings on any two squares, with the mover's off the centre and more than one move, are a draw |
| GameRules.WinnerIsOpponent | game.py:53 | `side_names[~side]` names the side not to move: WHITE for side 0 and BLACK for side 1 |

## Left out

- Terminal output, `input()`, the retry loops and the module-level scripts are not modelled: `display`'s printing, `print_board`, checkers.py:101-102 and game.py:120-124 are all I/O. A prompt reads a given sequence of lines and yields nothing when they run out. In the source, `input()` then raises `EOFError`, which the `except ValueError` at game.py:98 and game.py:108 does not catch, so the program stops with that error.
- Deepening.TruncatedRootBelowHeight: the finite tree is a modelling assumption. The source has no repetition check and no move cap inside the search, so a king stepping from 16 to 12 and back makes the program's tree infinite. Such a tree has move sequences of every length, so the flag can stay up at every depth, and for real positions with kings `while self.unexplored` (ai.py:31) typically ends by the clock: the SIGALRM timeout or the half-time test at ai.py:45-46. Termination because the flag comes down is proved for finite trees only.
- Deepening.Ids: the SIGALRM timeout and `time.time()` become two oracles. `alarm` is the number of depths that finish before the alarm. `late(d)` says whether half the time limit has passed after depth d. An alarm that interrupts depth d+1 returns the move of depth d, which is the same as the alarm striking between the two depths.
- Deepening.Ids: the contract says that some permutation of the moves was searched at the last depth. It does not name the permutation the previous depth produced.
- Deepening.Ids: with no moves, `minimax` returns the single score `evaluate(board)` instead of a list. `np.argmax` of that scalar is 0, so `moves[0]` at ai.py:39 raises an `IndexError`, which is not the timeout. This is modelled as `Failure`.
- Deepening.Reorder: numpy `argsort` uses an unstable quicksort, so ties may come out in any order. The model sorts stably and claims only a non-increasing permutation. `np.argmax` returns the first maximum, which is what `FirstArgmax` describes.
- The transposition dict and the unused `score` at ai.py:42 are not modelled, because nothing reads them.
- These board operations are not part of this model: `get_state`, `make_move`, `format_move`, `print_board`, `count_bits` and the no-argument `get_moves()`.
  - Their effect enters as the shape of the game tree.
  - `count_bits` is modelled as popcount.
  - `is_draw` takes the length of the move list as a parameter.
- game.py:65 calls `ai.iddfs`, while ai.py defines `ids`. The model takes `ids` as the one meant.
- `get_jumps` is a `pass` stub and `Move` is an empty class. Captures, jumps and promotion do not exist in this code.
- Bitboard.GetMoves: checkers.py:33, 36-40 and 45-49 name `BLACK` and `MASK_L3`, `MASK_L5`, `MASK_R3`, `MASK_R5` without `self.`, and no module-level names of that kind exist, so as written the method raises `NameError` on its first call. The model reads each name as the class constant of that name (checkers.py:6, 13-18).
- GameRules.CustomBoard: the only `Bitboard` constructor in checkers.py:20-29 takes another board. A tuple preset fails at `preset.black`, and even a board preset gets its side reset to black. The model takes game.py:27 to mean the evidently intended constructor, which takes the four words as given and keeps the side. The same reading applies to the empty board at game.py:18.
- GameRules.CustomBoardFromListsKings: it builds the words with `SquareSet`, not with the sums of game.py:97. The two agree bit for bit only when no list repeats a square (`CustomBoardFromListsAsWritten`). A repeated square is the fourth finding below. The equality of the sum and the union as integers is not stated; the bit-for-bit agreement, with no bit past 31, is.
- The board's side field is `active` in checkers.py but `side` in ai.py and game.py. The model has one field, `side`.
- checkers.py:27 builds white as `np.int32(2**32 - 2**20)`, which overflows int32. The model takes the intended bit pattern 0xFFF00000. It also treats the uint32 `kings` word as the same 32 bits.
- Bitboard.GetMoves: the model is the int32 reading. On a custom board the words are unbounded Python ints, so the complement has every bit above 31 set. There the phantom step of the finding below appears even when square 31 is occupied. Only the int32 behaviour is modelled.
- Bitboard.BlackMovesExact: exact only on squares 0..27. On 28..31 the int32 shift makes `get_moves` wrong, as the first finding shows.
- Evaluation.AdvancementTerm and Evaluation.CentralTerm: modelled as Python parses them, on 32-bit words. Only the low bits survive the final mask, so numpy's promotion to 64 bits changes nothing there. No contract is stated beyond the examples in AdvancementOneSided, because the terms mix colours on purpose. Colour antisymmetry is therefore claimed only for the endgame.
- The timelimit prompt and the game-mode selection of `new_game` are not modelled, apart from the `prompt` rule they use.
- Python `int()` also accepts underscores between digits, Unicode digits and non-ASCII white space. The model accepts ASCII digits only, and strips the ASCII characters that `int()` strips: tab, line feed, vertical tab, form feed, carriage return, 0x1c-0x1f and space. `str.split` is not modelled: `prompt_list` receives each line as tokens.

## Findings

| source | as written | input that shows it | evidently intended | confidence | as-written member | corrected member |
|---|---|---|---|---|---|---|
| checkers.py:47-49 | `empty_squares >> 4` on an int32 is an arithmetic shift, so the +4 neighbour of squares 28..31 is read from bit 31 | white king on 28, black man on 24, square 31 empty, white to move: 28 is reported movable though its only neighbour is occupied | squares past 31 are off the board (a logical shift) | medium, not executed | Bitboard.SignExtensionCounterexample | Bitboard.MovablesExact |
| ai.py:184-191 | `bit1 & 0x0f0f0f0f` tests the square index, not its bit or its row parity | black on 0, white on 5, which are diagonal neighbours: `total_distance` gives 4 | 2, one rank and one file | high, not executed | Evaluation.TotalDistanceIndexTest | Evaluation.DiagonalAtDistanceTwo |
| ai.py:177-179 | `bin()` of a negative int32 prints its magnitude, so a word with bit 31 set is walked as another set of squares | white on 30 and 31 (the word -2^30): only square 30 is counted | every white piece counted | medium, not executed | Evaluation.TotalDistanceMagnitude | Evaluation.ManhattanTotalTopBit |
| game.py:97 | `sum(2**s)` adds a repeated square twice, carrying into the next bit | the line "3 3" yields 16, i.e. square 4 | the set of listed squares | medium, not executed | GameRules.ListValueRepeatedSquare | GameRules.SquareSetHas |

The rest of the model uses the corrected definitions:
- `Evaluate` takes a `Metric`. `AsWritten` scores the endgame with `TotalDistance`, which is the program's `evaluate`. `Grid` uses `ManhattanTotal`, which is the corrected one. The colour and tempo lemmas hold for both.
- `CustomBoardFromLists` builds its words with `SquareSet`.

=== FILE: alphabeta.dfy ===
/**
 * The adversarial search of the AI: fail-soft alpha-beta `max_value` and
 * `min_value`, the root scorer `minimax`, and the depth-limited minimax value
 * they approximate.
 *
 * The board calls the search makes (the move list, applying a move, the
 * static evaluation) are folded into a finite game tree: a node carries the
 * evaluation of its board, from the root side's point of view, and its
 * children are the boards after each move, in move order. The `unexplored`
 * field the search sets is returned as a second result instead.
 */
module AlphaBeta {

  datatype Tree = Node(score: int, children: seq<Tree>)

  /** An alpha-beta bound: minus infinity, a score, or plus infinity. */
  datatype Bound = NegInf | Fin(v: int) | PosInf

  predicate Le(a: Bound, b: Bound) {
    a.NegInf? || b.PosInf? || (a.Fin? && b.Fin? && a.v <= b.v)
  }

  predicate Lt(a: Bound, b: Bound) {
    !Le(b, a)
  }

  /** Python's `max` on two bounds. */
  function BMax(a: Bound, b: Bound): (r: Bound)
    ensures Le(a, r) && Le(b, r) && (r == a || r == b)
  {
    if Lt(a, b) then b else a
  }

  /** Python's `min` on two bounds. */
  function BMin(a: Bound, b: Bound): (r: Bound)
    ensures Le(r, a) && Le(r, b) && (r == a || r == b)
  {
    if Lt(b, a) then b else a
  }

  /** A search result: the score and whether some visited node with moves
      left was cut off by the depth limit (`self.unexplored = 1`). */
  datatype Outcome = Outcome(value: int, unexplored: bool)

  // ------------------------------------------------------------ reference

  /** The depth-limited minimax value: the evaluation at a node without moves
      or at depth 0, otherwise the best child value for the side to move. */
  function Minimax(t: Tree, depth: nat, maximizing: bool): int
    decreases depth, 1
  {
    if |t.children| == 0 || depth == 0 then t.score
    else if maximizing then MaxOf(t.children, depth)
    else MinOf(t.children, depth)
  }

  /** The largest minimax value of the children, searched one level less. */
  function MaxOf(cs: seq<Tree>, depth: nat): int
    requires |cs| > 0 && depth > 0
    decreases depth, 0, |cs|
  {
    var head := Minimax(cs[0], depth - 1, false);
    if |cs| == 1 then head
    else var rest := MaxOf(cs[1..], depth); if head < rest then rest else head
  }

  function MinOf(cs: seq<Tree>, depth: nat): int
    requires |cs| > 0 && depth > 0
    decreases depth, 0, |cs|
  {
    var head := Minimax(cs[0], depth - 1, true);
    if |cs| == 1 then head
    else var rest := MinOf(cs[1..], depth); if rest < head then rest else head
  }

  // ------------------------------------------------------------ alpha-beta

  /** `max_value(board, depth, alpha, beta)`. */
  function MaxValue(t: Tree, depth: nat, alpha: Bound, beta: Bound): Outcome
    decreases depth, 1
  {
    if |t.children| == 0 then Outcome(t.score, false)
    else if depth == 0 then Outcome(t.score, true)
    else MaxLoop(t.children, depth, NegInf, alpha, beta)
  }

  /** The move loop of `max_value` from the first remaining child on, with
      the running `value` and `alpha`. */
  function MaxLoop(cs: seq<Tree>, depth: nat, value: Bound, alpha: Bound, beta: Bound): Outcome
    requires |cs| > 0 && depth > 0 && value != PosInf
    decreases depth, 0, |cs|
  {
    var child := MinValue(cs[0], depth - 1, alpha, beta);
    var value' := BMax(value, Fin(child.value));
    var alpha' := BMax(alpha, value');
    if Le(beta, alpha') || |cs| == 1 then Outcome(value'.v, child.unexplored)
    else
      var rest := MaxLoop(cs[1..], depth, value', alpha', beta);
      Outcome(rest.value, child.unexplored || rest.unexplored)
  }

  /** `min_value(board, depth, alpha, beta)`. */
  function MinValue(t: Tree, depth: nat, alpha: Bound, beta: Bound): Outcome
    decreases depth, 1
  {
    if |t.children| == 0 then Outcome(t.score, false)
    else if depth == 0 then Outcome(t.score, true)
    else MinLoop(t.children, depth, PosInf, alpha, beta)
  }

  function MinLoop(cs: seq<Tree>, depth: nat, value: Bound, alpha: Bound, beta: Bound): Outcome
    requires |cs| > 0 && depth > 0 && value != NegInf
    decreases depth, 0, |cs|
  {
    var child := MaxValue(cs[0], depth - 1, alpha, beta);
    var value' := BMin(value, Fin(child.value));
    var beta' := BMin(beta, value');
    if Le(beta', alpha) || |cs| == 1 then Outcome(value'.v, child.unexplored)
    else
      var rest := MinLoop(cs[1..], depth, value', alpha, beta');
      Outcome(rest.value, child.unexplored || rest.unexplored)
  }

  // ------------------------------------------------------------ soundness

  /** Fail-soft alpha-beta at a max node: a result above alpha is a lower
      bound on the minimax value, a result below beta an upper bound. So a
      value strictly inside the window comes back exactly, a result at or
      below alpha bounds the value from above, and one at or above beta
      bounds it from below. */
  lemma {:induction false} MaxValueSound(t: Tree, depth: nat, alpha: Bound, beta: Bound)
    requires Lt(alpha, beta)
    ensures var r := MaxValue(t, depth, alpha, beta).value;
            var v := Minimax(t, depth, true);
            (Lt(alpha, Fin(r)) ==> r <= v) && (Lt(Fin(r), beta) ==> v <= r)
    decreases depth, 1
  {
    if |t.children| > 0 && depth > 0 {
      MaxLoopSound(t.children, depth, NegInf, alpha, beta);
    }
  }

  /** The same for a min node. */
  lemma {:induction false} MinValueSound(t: Tree, depth: nat, alpha: Bound, beta: Bound)
    requires Lt(alpha, beta)
    ensures var r := MinValue(t, depth, alpha, beta).value;
            var v := Minimax(t, depth, false);
            (Lt(alpha, Fin(r)) ==> r <= v) && (Lt(Fin(r), beta) ==> v <= r)
    decreases depth, 1
  {
    if |t.children| > 0 && depth > 0 {
      MinLoopSound(t.children, depth, PosInf, alpha, beta);
    }
  }

  /** The max loop: the result never drops below the running value; when it
      stays below beta no child was cut off and it bounds every child's value
      from above; when it rose above alpha and the running value, the child
      that raised it was searched inside its window. */
  lemma {:induction false} MaxLoopSound(cs: seq<Tree>, depth: nat, value: Bound, alpha: Bound, beta: Bound)
    requires |cs| > 0 && depth > 0 && value != PosInf
    requires Le(value, alpha) && Lt(alpha, beta)
    ensures var r := MaxLoop(cs, depth, value, alpha, beta).value;
            var v := MaxOf(cs, depth);
            Le(value, Fin(r))
            && (Lt(Fin(r), beta) ==> v <= r)
            && (Lt(alpha, Fin(r)) && Lt(value, Fin(r)) ==> r <= v)
    decreases depth, 0, |cs|
  {
    var child := MinValue(cs[0], depth - 1, alpha, beta);
    MinValueSound(cs[0], depth - 1, alpha, beta);
    var value' := BMax(value, Fin(child.value));
    var alpha' := BMax(alpha, value');
    if !Le(beta, alpha') && |cs| > 1 {
      MaxLoopSound(cs[1..], depth, value', alpha', beta);
    }
  }

  lemma {:induction false} MinLoopSound(cs: seq<Tree>, depth: nat, value: Bound, alpha: Bound, beta: Bound)
    requires |cs| > 0 && depth > 0 && value != NegInf
    requires Le(beta, value) && Lt(alpha, beta)
    ensures var r := MinLoop(cs, depth, value, alpha, beta).value;
            var v := MinOf(cs, depth);
            Le(Fin(r), value)
            && (Lt(alpha, Fin(r)) ==> r <= v)
            && (Lt(Fin(r), beta) && Lt(Fin(r), value) ==> v <= r)
    decreases depth, 0, |cs|
  {
    var child := MaxValue(cs[0], depth - 1, alpha, beta);
    MaxValueSound(cs[0], depth - 1, alpha, beta);
    var value' := BMin(value, Fin(child.value));
    var beta' := BMin(beta, value');
    if !Le(beta', alpha) && |cs| > 1 {
      MinLoopSound(cs[1..], depth, value', alpha, beta');
    }
  }

  /** The three window cases, for both kinds of node. */
  lemma MaxValueWindow(t: Tree, depth: nat, alpha: Bound, beta: Bound)
    requires Lt(alpha, beta)
    ensures var r := MaxValue(t, depth, alpha, beta).value;
            var v := Minimax(t, depth, true);
            (Lt(alpha, Fin(v)) && Lt(Fin(v), beta) ==> r == v)
            && (Le(Fin(r), alpha) ==> v <= r)
            && (Le(beta, Fin(r)) ==> r <= v)
  {
    MaxValueSound(t, depth, alpha, beta);
  }

  lemma MinValueWindow(t: Tree, depth: nat, alpha: Bound, beta: Bound)
    requires Lt(alpha, beta)
    ensures var r := MinValue(t, depth, alpha, beta).value;
            var v := Minimax(t, depth, false);
            (Lt(alpha, Fin(v)) && Lt(Fin(v), beta) ==> r == v)
            && (Le(Fin(r), alpha) ==> v <= r)
            && (Le(beta, Fin(r)) ==> r <= v)
  {
    MinValueSound(t, depth, alpha, beta);
  }

  /** With the infinite window the search computes minimax exactly. */
  lemma FullWindowExact(t: Tree, depth: nat)
    ensures MaxValue(t, depth, NegInf, PosInf).value == Minimax(t, depth, true)
    ensures MinValue(t, depth, NegInf, PosInf).value == Minimax(t, depth, false)
  {
    MaxValueSound(t, depth, NegInf, PosInf);
    MinValueSound(t, depth, NegInf, PosInf);
  }

  // ------------------------------------------------------ the unexplored flag

  /** Some node within `depth` moves of t still has moves at the depth limit. */
  predicate Truncated(t: Tree, depth: nat)
    decreases depth
  {
    |t.children| > 0
    && (depth == 0 || exists i :: 0 <= i < |t.children| && Truncated(t.children[i], depth - 1))
  }

  /** The flag is only raised at a node that had moves at the depth limit. */
  lemma {:induction false} MaxValueFlagSound(t: Tree, depth: nat, alpha: Bound, beta: Bound)
    ensures MaxValue(t, depth, alpha, beta).unexplored ==> Truncated(t, depth)
    decreases depth, 1
  {
    if |t.children| > 0 && depth > 0 {
      MaxLoopFlagSound(t.children, depth, NegInf, alpha, beta);
    }
  }

  lemma {:induction false} MinValueFlagSound(t: Tree, depth: nat, alpha: Bound, beta: Bound)
    ensures MinValue(t, depth, alpha, beta).unexplored ==> Truncated(t, depth)
    decreases depth, 1
  {
    if |t.children| > 0 && depth > 0 {
      MinLoopFlagSound(t.children, depth, PosInf, alpha, beta);
    }
  }

  lemma {:induction false} MaxLoopFlagSound(cs: seq<Tree>, depth: nat, value: Bound, alpha: Bound, beta: Bound)
    requires |cs| > 0 && depth > 0 && value != PosInf
    ensures MaxLoop(cs, depth, value, alpha, beta).unexplored
            ==> exists i :: 0 <= i < |cs| && Truncated(cs[i], depth - 1)
    decreases depth, 0, |cs|
  {
    MinValueFlagSound(cs[0], depth - 1, alpha, beta);
    var value' := BMax(value, Fin(MinValue(cs[0], depth - 1, alpha, beta).value));
    var alpha' := BMax(alpha, value');
    if !Le(beta, alpha') && |cs| > 1 {
      MaxLoopFlagSound(cs[1..], depth, value', alpha', beta);
      if MaxLoop(cs[1..], depth, value', alpha', beta).unexplored {
        var i :| 0 <= i < |cs| - 1 && Truncated(cs[1..][i], depth - 1);
        assert cs[i + 1] == cs[1..][i];
      }
    }
  }

  lemma {:induction false} MinLoopFlagSound(cs: seq<Tree>, depth: nat, value: Bound, alpha: Bound, beta: Bound)
    requires |cs| > 0 && depth > 0 && value != NegInf
    ensures MinLoop(cs, depth, value, alpha, beta).unexplored
            ==> exists i :: 0 <= i < |cs| && Truncated(cs[i], depth - 1)
    decreases depth, 0, |cs|
  {
    MaxValueFlagSound(cs[0], depth - 1, alpha, beta);
    var value' := BMin(value, Fin(MaxValue(cs[0], depth - 1, alpha, beta).value));
    var beta' := BMin(beta, value');
    if !Le(beta', alpha) && |cs| > 1 {
      MinLoopFlagSound(cs[1..], depth, value', alpha, beta');
      if MinLoop(cs[1..], depth, value', alpha, beta').unexplored {
        var i :| 0 <= i < |cs| - 1 && Truncated(cs[1..][i], depth - 1);
        assert cs[i + 1] == cs[1..][i];
      }
    }
  }

  /** A search that left the flag down gives the same answer one level
      deeper: every node it visited was a node without moves or was searched
      to the end, so the extra level changes no value and no cutoff. This is
      why iterative deepening stops once the flag stays down. */
  lemma {:induction false} MaxValueStable(t: Tree, depth: nat, alpha: Bound, beta: Bound)
    requires !MaxValue(t, depth, alpha, beta).unexplored
    ensures MaxValue(t, depth + 1, alpha, beta) == MaxValue(t, depth, alpha, beta)
    decreases depth, 1
  {
    if |t.children| > 0 {
      MaxLoopStable(t.children, depth, NegInf, alpha, beta);
    }
  }

  lemma {:induction false} MinValueStable(t: Tree, depth: nat, alpha: Bound, beta: Bound)
    requires !MinValue(t, depth, alpha, beta).unexplored
    ensures MinValue(t, depth + 1, alpha, beta) == MinValue(t, depth, alpha, beta)
    decreases depth, 1
  {
    if |t.children| > 0 {
      MinLoopStable(t.children, depth, PosInf, alpha, beta);
    }
  }

  lemma {:induction false} MaxLoopStable(cs: seq<Tree>, depth: nat, value: Bound, alpha: Bound, beta: Bound)
    requires |cs| > 0 && depth > 0 && value != PosInf
    requires !MaxLoop(cs, depth, value, alpha, beta).unexplored
    ensures MaxLoop(cs, depth + 1, value, alpha, beta) == MaxLoop(cs, depth, value, alpha, beta)
    decreases depth, 0, |cs|
  {
    MinValueStable(cs[0], depth - 1, alpha, beta);
    var value' := BMax(value, Fin(MinValue(cs[0], depth - 1, alpha, beta).value));
    var alpha' := BMax(alpha, value');
    if !Le(beta, alpha') && |cs| > 1 {
      MaxLoopStable(cs[1..], depth, value', alpha', beta);
    }
  }

  lemma {:induction false} MinLoopStable(cs: seq<Tree>, depth: nat, value: Bound, alpha: Bound, beta: Bound)
    requires |cs| > 0 && depth > 0 && value != NegInf
    requires !MinLoop(cs, depth, value, alpha, beta).unexplored
    ensures MinLoop(cs, depth + 1, value, alpha, beta) == MinLoop(cs, depth, value, alpha, beta)
    decreases depth, 0, |cs|
  {
    MaxValueStable(cs[0], depth - 1, alpha, beta);
    var value' := BMin(value, Fin(MaxValue(cs[0], depth - 1, alpha, beta).value));
    var beta' := BMin(beta, value');
    if !Le(beta', alpha) && |cs| > 1 {
      MinLoopStable(cs[1..], depth, value', alpha, beta');
    }
  }

  /** The largest element of a sequence of naturals, 0 when it is empty. */
  function MaxNat(s: seq<nat>): (m: nat)
    ensures forall i :: 0 <= i < |s| ==> s[i] <= m
  {
    if |s| == 0 then 0
    else var rest := MaxNat(s[1..]); if s[0] < rest then rest else s[0]
  }

  /** The number of moves on the longest line of play from t. */
  function Height(t: Tree): nat
    decreases t
  {
    if |t.children| == 0 then 0
    else 1 + MaxNat(seq(|t.children|, i requires 0 <= i < |t.children| => Height(t.children[i])))
  }

  /** A search at least as deep as the tree is never cut off, so the flag
      stays down once the deepening reaches the height of the tree. */
  lemma {:induction false} DeepEnoughNotTruncated(t: Tree, depth: nat)
    requires depth >= Height(t)
    ensures !Truncated(t, depth)
    decreases depth
  {
    if |t.children| > 0 {
      var hs := seq(|t.children|, i requires 0 <= i < |t.children| => Height(t.children[i]));
      forall i | 0 <= i < |t.children|
        ensures !Truncated(t.children[i], depth - 1)
      {
        assert hs[i] == Height(t.children[i]);
        DeepEnoughNotTruncated(t.children[i], depth - 1);
      }
    }
  }

  // ------------------------------------------------------------ the root

  /** What `minimax(board, moves, depth)` returns: the evaluation of the
      board itself when there are no moves or the depth is 0, otherwise one
      score per move. */
  datatype RootResult =
    | Terminal(score: int, unexplored: bool)
    | Scores(values: seq<int>, unexplored: bool)

  /** `minimax(board, moves, depth)`: the moves are the children of t. */
  function RootSearch(t: Tree, depth: nat): RootResult {
    if |t.children| == 0 then Terminal(t.score, false)
    else if depth == 0 then Terminal(t.score, true)
    else RootLoop(t.children, depth, NegInf, NegInf)
  }

  /** The move loop of `minimax`: beta stays plus infinity. */
  function RootLoop(cs: seq<Tree>, depth: nat, value: Bound, alpha: Bound): (r: RootResult)
    requires |cs| > 0 && depth > 0 && value != PosInf
    ensures r.Scores?
    decreases |cs|
  {
    var child := MinValue(cs[0], depth - 1, alpha, PosInf);
    var value' := BMax(value, Fin(child.value));
    var alpha' := BMax(alpha, value');
    if Le(PosInf, alpha') || |cs| == 1 then Scores([child.value], child.unexplored)
    else
      var rest := RootLoop(cs[1..], depth, value', alpha');
      Scores([child.value] + rest.values, child.unexplored || rest.unexplored)
  }

  /** The root loop never breaks: alpha stays finite, so one score comes back
      per move, in move order, and each bounds its move's minimax value from
      above. */
  lemma {:induction false} RootLoopUpper(cs: seq<Tree>, depth: nat, value: Bound, alpha: Bound)
    requires |cs| > 0 && depth > 0 && value != PosInf
    requires alpha != PosInf
    ensures var r := RootLoop(cs, depth, value, alpha);
            |r.values| == |cs|
            && forall i :: 0 <= i < |cs| ==> Minimax(cs[i], depth - 1, false) <= r.values[i]
    decreases |cs|
  {
    var child := MinValue(cs[0], depth - 1, alpha, PosInf);
    MinValueSound(cs[0], depth - 1, alpha, PosInf);
    var value' := BMax(value, Fin(child.value));
    var alpha' := BMax(alpha, value');
    if |cs| > 1 {
      RootLoopUpper(cs[1..], depth, value', alpha');
      var rest := RootLoop(cs[1..], depth, value', alpha');
      var vs := RootLoop(cs, depth, value, alpha).values;
      assert vs == [child.value] + rest.values;
      forall i | 1 <= i < |cs|
        ensures Minimax(cs[i], depth - 1, false) <= vs[i]
      {
        assert vs[i] == rest.values[i - 1] && cs[i] == cs[1..][i - 1];
      }
    }
  }

  /** A root score that beats alpha and every earlier score is exact: that
      move was searched with a window its value lies in. */
  lemma {:induction false} RootLoopExact(cs: seq<Tree>, depth: nat, value: Bound, alpha: Bound, i: nat)
    requires |cs| > 0 && depth > 0 && value != PosInf
    requires Le(value, alpha) && alpha != PosInf
    requires i < |RootLoop(cs, depth, value, alpha).values|
    requires Lt(alpha, Fin(RootLoop(cs, depth, value, alpha).values[i]))
    requires forall k :: 0 <= k < i ==> RootLoop(cs, depth, value, alpha).values[k]
                                        < RootLoop(cs, depth, value, alpha).values[i]
    ensures i < |cs| && RootLoop(cs, depth, value, alpha).values[i] == Minimax(cs[i], depth - 1, false)
    decreases |cs|
  {
    var child := MinValue(cs[0], depth - 1, alpha, PosInf);
    var value' := BMax(value, Fin(child.value));
    var alpha' := BMax(alpha, value');
    var vs := RootLoop(cs, depth, value, alpha).values;
    if i == 0 {
      MinValueSound(cs[0], depth - 1, alpha, PosInf);
    } else {
      var rest := RootLoop(cs[1..], depth, value', alpha').values;
      assert vs == [child.value] + rest;
      assert vs[i] == rest[i - 1];
      assert vs[0] < vs[i];
      forall k | 0 <= k < i - 1
        ensures rest[k] < rest[i - 1]
      {
        assert vs[k + 1] == rest[k];
      }
      RootLoopExact(cs[1..], depth, value', alpha', i - 1);
      assert cs[i] == cs[1..][i - 1];
    }
  }

  /** The largest child value bounds every child's value ... */
  lemma {:induction false} MaxOfUpper(cs: seq<Tree>, depth: nat)
    requires |cs| > 0 && depth > 0
    ensures forall i :: 0 <= i < |cs| ==> Minimax(cs[i], depth - 1, false) <= MaxOf(cs, depth)
    decreases |cs|
  {
    if |cs| > 1 {
      MaxOfUpper(cs[1..], depth);
      forall i | 1 <= i < |cs|
        ensures Minimax(cs[i], depth - 1, false) <= MaxOf(cs, depth)
      {
        assert cs[i] == cs[1..][i - 1];
      }
    }
  }

  /** ... and is the value of one of them. */
  lemma {:induction false} MaxOfAttained(cs: seq<Tree>, depth: nat)
    requires |cs| > 0 && depth > 0
    ensures exists i :: 0 <= i < |cs| && MaxOf(cs, depth) == Minimax(cs[i], depth - 1, false)
    decreases |cs|
  {
    if MaxOf(cs, depth) == Minimax(cs[0], depth - 1, false) {
      assert 0 < |cs|;
    } else {
      MaxOfAttained(cs[1..], depth);
      var i :| 0 <= i < |cs| - 1 && MaxOf(cs[1..], depth) == Minimax(cs[1..][i], depth - 1, false);
      assert cs[1..][i] == cs[i + 1];
    }
  }

  /** The root search raises the flag only when the tree was cut off, and a
      root without moves leaves it down. */
  lemma RootFlagSound(t: Tree, depth: nat)
    ensures RootSearch(t, depth).unexplored ==> Truncated(t, depth)
    ensures |t.children| == 0 ==> !RootSearch(t, depth).unexplored
  {
    if |t.children| > 0 && depth > 0 {
      RootLoopFlagSound(t.children, depth, NegInf, NegInf);
    }
  }

  lemma {:induction false} RootLoopFlagSound(cs: seq<Tree>, depth: nat, value: Bound, alpha: Bound)
    requires |cs| > 0 && depth > 0 && value != PosInf
    ensures RootLoop(cs, depth, value, alpha).unexplored
            ==> exists i :: 0 <= i < |cs| && Truncated(cs[i], depth - 1)
    decreases |cs|
  {
    MinValueFlagSound(cs[0], depth - 1, alpha, PosInf);
    var value' := BMax(value, Fin(MinValue(cs[0], depth - 1, alpha, PosInf).value));
    var alpha' := BMax(alpha, value');
    if !Le(PosInf, alpha') && |cs| > 1 {
      RootLoopFlagSound(cs[1..], depth, value', alpha');
      if RootLoop(cs[1..], depth, value', alpha').unexplored {
        var i :| 0 <= i < |cs| - 1 && Truncated(cs[1..][i], depth - 1);
        assert cs[i + 1] == cs[1..][i];
      }
    }
  }

  /** A root search that left the flag down is final: searching one level
      deeper returns the same scores and again leaves the flag down. */
  lemma RootStable(t: Tree, depth: nat)
    requires !RootSearch(t, depth).unexplored
    ensures RootSearch(t, depth + 1) == RootSearch(t, depth)
  {
    if |t.children| > 0 {
      RootLoopStable(t.children, depth, NegInf, NegInf);
    }
  }

  lemma {:induction false} RootLoopStable(cs: seq<Tree>, depth: nat, value: Bound, alpha: Bound)
    requires |cs| > 0 && depth > 0 && value != PosInf
    requires !RootLoop(cs, depth, value, alpha).unexplored
    ensures RootLoop(cs, depth + 1, value, alpha) == RootLoop(cs, depth, value, alpha)
    decreases |cs|
  {
    MinValueStable(cs[0], depth - 1, alpha, PosInf);
    var value' := BMax(value, Fin(MinValue(cs[0], depth - 1, alpha, PosInf).value));
    var alpha' := BMax(alpha, value');
    if !Le(PosInf, alpha') && |cs| > 1 {
      RootLoopStable(cs[1..], depth, value', alpha');
    }
  }

  /** Once the flag stays down at some depth, every deeper root search gives
      the same result: the tree is fully explored. */
  lemma {:induction false} RootFinal(t: Tree, depth: nat, deeper: nat)
    requires !RootSearch(t, depth).unexplored && depth <= deeper
    ensures RootSearch(t, deeper) == RootSearch(t, depth)
    decreases deeper - depth
  {
    if depth < deeper {
      RootStable(t, depth);
      RootFinal(t, depth + 1, deeper);
    }
  }
}

=== FILE: bitboard.dfy ===
/**
 * The checkers bitboard: the piece sets of both colours and of kings as 32-bit
 * words over the dark squares, the four edge-guard masks, the square numbering
 * of the display, and the generator of pieces that have an empty diagonal step.
 */
module Bitboard {
  import opened Bits
  import opened Options

  /** BLACK and WHITE, the class constants 0 and 1. */
  datatype Side = Black | White

  function Opponent(side: Side): Side {
    if side == Black then White else Black
  }

  /** From these squares a shift by +5 reaches a diagonal neighbour (even rows). */
  const MASK_L5: bv32 := 0x07070707
  /** From these squares a shift by -3 reaches a diagonal neighbour (even rows). */
  const MASK_R3: bv32 := 0x07070700
  /** From these squares a shift by +3 reaches a diagonal neighbour (odd rows). */
  const MASK_L3: bv32 := 0x00e0e0e0
  /** From these squares a shift by -5 reaches a diagonal neighbour (odd rows). */
  const MASK_R5: bv32 := 0xe0e0e0e0

  /** A position: occupied squares of each colour, squares holding a king, and
      the side to move (the source's `active`; the search calls it `side`). */
  datatype Board = Board(black: bv32, white: bv32, kings: bv32, side: Side)

  // ---------------------------------------------------------------- geometry

  /** Board row of a square: four dark squares per row. */
  function Row(s: Square): (r: bv32)
    ensures r < 8
  {
    s / 4
  }

  /** Board column of a square: dark cells sit on odd columns in even rows and
      on even columns in odd rows. */
  function Col(s: Square): (c: bv32)
    ensures c < 8
  {
    if Row(s) % 2 == 0 then 2 * (s % 4) + 1 else 2 * (s % 4)
  }

  /** A dark cell of the 8x8 board: the cells the display numbers. */
  predicate DarkCell(row: bv32, col: bv32) {
    row < 8 && col < 8 && (row + col) % 2 == 1
  }

  /** The square number the display prints in the cell (row, col). */
  function SquareOf(row: bv32, col: bv32): (s: Square)
    requires DarkCell(row, col)
    ensures Row(s) == row && Col(s) == col
  {
    (row * 8 + col) / 2
  }

  /** Every square is the number of exactly one dark cell, so the numbering is
      a bijection between dark cells and 0..31. */
  lemma SquareNumberingBijective(s: Square, row: bv32, col: bv32)
    ensures DarkCell(Row(s), Col(s)) && SquareOf(Row(s), Col(s)) == s
    ensures DarkCell(row, col) ==> (SquareOf(row, col) == s <==> row == Row(s) && col == Col(s))
  {}

  /** s and t are diagonal neighbours on the board. */
  predicate Diagonal(s: Square, t: Square) {
    && (Row(s) == Row(t) + 1 || Row(t) == Row(s) + 1)
    && (Col(s) == Col(t) + 1 || Col(t) == Col(s) + 1)
  }

  /** Each edge mask is exactly the set of squares whose +-3 or +-5 neighbour
      index is on the board and a diagonal neighbour. */
  lemma EdgeMasksMatchGeometry(s: Square)
    ensures Has(MASK_L3, s) <==> s + 3 < 32 && Diagonal(s, s + 3)
    ensures Has(MASK_L5, s) <==> s + 5 < 32 && Diagonal(s, s + 5)
    ensures Has(MASK_R3, s) <==> s >= 3 && Diagonal(s, s - 3)
    ensures Has(MASK_R5, s) <==> s >= 5 && Diagonal(s, s - 5)
  {}

  /** The diagonal neighbours of s are exactly the +-4 steps that stay on the
      board and the +-3 / +-5 steps the masks allow: no step wraps a row. */
  lemma DiagonalSteps(s: Square, t: Square)
    ensures Diagonal(s, t) <==>
      || s + 4 == t
      || (Has(MASK_L3, s) && s + 3 == t)
      || (Has(MASK_L5, s) && s + 5 == t)
      || (s >= 4 && s - 4 == t)
      || (Has(MASK_R3, s) && s - 3 == t)
      || (Has(MASK_R5, s) && s - 5 == t)
  {
    EdgeMasksMatchGeometry(s);
  }

  // ----------------------------------------------------------- construction

  /** The position `Bitboard()` builds: black on 0..11 and 16, white on 20..31,
      one king on 16, black to move. */
  function Initial(): (b: Board)
    ensures b.black & b.white == 0 && b.kings & !b.black == 0
    ensures b.side == Black
  {
    Board(0x0001_0FFF, 0xFFF0_0000, 0x0001_0000, Black)
  }

  /** The squares of the initial position. */
  lemma InitialSquares(s: Square)
    ensures Has(Initial().black, s) <==> s < 12 || s == 16
    ensures Has(Initial().white, s) <==> s >= 20
    ensures Has(Initial().kings, s) <==> s == 16
  {}

  /** `Bitboard(preset)`: a copy of the preset's pieces, or the initial
      position without one; either way black is to move. */
  function NewBitboard(preset: Option<Board>): (b: Board)
    ensures b.side == Black
    ensures preset.Some? ==> b.black == preset.value.black && b.white == preset.value.white
                             && b.kings == preset.value.kings
    ensures preset.None? ==> b == Initial()
  {
    match preset
    case Some(p) => Board(p.black, p.white, p.kings, Black)
    case None => Initial()
  }

  /** Copying keeps a position unchanged exactly when black was to move in it,
      and copying a copy changes nothing. */
  lemma CopyResetsSide(p: Board)
    ensures NewBitboard(Some(p)) == p <==> p.side == Black
    ensures NewBitboard(Some(NewBitboard(Some(p)))) == NewBitboard(Some(p))
  {}

  // ---------------------------------------------------------- move finding

  function Own(b: Board, side: Side): bv32 {
    if side == Black then b.black else b.white
  }

  /** Square t is on the board and empty. */
  predicate VacantAt(b: Board, t: bv32) {
    t < 32 && !Has(b.black | b.white, t)
  }

  /** The right shift the generator uses: numpy's arithmetic int32 shift as
      written, or a logical shift. */
  function ShiftRight(x: bv32, k: Square, arithmetic: bool): bv32 {
    if arithmetic then ArithShiftRight(x, k) else x >> k
  }

  /** The empty squares: every bit occupied by neither colour. */
  function Empty(b: Board): bv32 {
    !(b.black | b.white)
  }

  /** The mover's kings. */
  function OwnKings(b: Board, side: Side): bv32 {
    Own(b, side) & b.kings
  }

  /** The six shift-and-mask terms for a side whose men move toward higher
      squares: `up3..up5` are the empty set shifted right, kings also use the
      empty set shifted left. */
  function UpwardTerms(own: bv32, kings: bv32, empty: bv32, up3: bv32, up4: bv32, up5: bv32): bv32 {
    (up4 & own) | (up3 & own & MASK_L3) | (up5 & own & MASK_L5)
    | ((empty << 4) & kings) | ((empty << 3) & kings & MASK_R3) | ((empty << 5) & kings & MASK_R5)
  }

  /** The mirror terms for a side whose men move toward lower squares. */
  function DownwardTerms(own: bv32, kings: bv32, empty: bv32, up3: bv32, up4: bv32, up5: bv32): bv32 {
    ((empty << 4) & own) | ((empty << 3) & own & MASK_R3) | ((empty << 5) & own & MASK_R5)
    | (up4 & kings) | (up3 & kings & MASK_L3) | (up5 & kings & MASK_L5)
  }

  /** get_moves with the choice of right shift as a parameter. */
  function Generator(b: Board, side: Side, arithmetic: bool): bv32 {
    var empty := Empty(b);
    var up3 := ShiftRight(empty, 3, arithmetic);
    var up4 := ShiftRight(empty, 4, arithmetic);
    var up5 := ShiftRight(empty, 5, arithmetic);
    if side == Black then UpwardTerms(b.black, OwnKings(b, side), empty, up3, up4, up5)
    else DownwardTerms(b.white, OwnKings(b, side), empty, up3, up4, up5)
  }

  /** get_moves(side) as written: the right shifts are arithmetic because the
      words are numpy int32 values. The result never holds a square the mover
      does not occupy. */
  function GetMoves(b: Board, side: Side): (r: bv32)
    ensures r & !Own(b, side) == 0
  {
    Generator(b, side, true)
  }

  /** The generator with logical right shifts: the set of the mover's pieces
      that have an empty diagonal step. */
  function Movables(b: Board, side: Side): (r: bv32)
    ensures r & !Own(b, side) == 0
  {
    Generator(b, side, false)
  }

  /** A step from s to t goes the way a piece of that colour may move: men of
      black toward higher squares, men of white toward lower ones, kings both. */
  predicate Direction(b: Board, side: Side, s: Square, t: Square) {
    Has(b.kings, s) || (if side == Black then s < t else t < s)
  }

  /** Reference definition: the mover has a piece on s with an empty diagonal
      neighbour in a direction that piece may move. */
  ghost predicate CanStep(b: Board, side: Side, s: Square) {
    && Has(Own(b, side), s)
    && exists t: Square :: Diagonal(s, t) && VacantAt(b, t) && Direction(b, side, s, t)
  }

  /** Some empty diagonal neighbour with a higher index, by the shifts +4, +3, +5. */
  predicate UpStep(b: Board, s: Square) {
    || VacantAt(b, s + 4)
    || (Has(MASK_L3, s) && VacantAt(b, s + 3))
    || (Has(MASK_L5, s) && VacantAt(b, s + 5))
  }

  /** Some empty diagonal neighbour with a lower index, by the shifts -4, -3, -5. */
  predicate DownStep(b: Board, s: Square) {
    || (s >= 4 && VacantAt(b, s - 4))
    || (Has(MASK_R3, s) && VacantAt(b, s - 3))
    || (Has(MASK_R5, s) && VacantAt(b, s - 5))
  }

  /** The right shifts by 3, 4 and 5 written out. */
  lemma ShiftRightUnfold(x: bv32, arithmetic: bool)
    ensures ShiftRight(x, 3, arithmetic)
            == if arithmetic && x & 0x8000_0000 != 0 then (x >> 3) | 0xE000_0000 else x >> 3
    ensures ShiftRight(x, 4, arithmetic)
            == if arithmetic && x & 0x8000_0000 != 0 then (x >> 4) | 0xF000_0000 else x >> 4
    ensures ShiftRight(x, 5, arithmetic)
            == if arithmetic && x & 0x8000_0000 != 0 then (x >> 5) | 0xF800_0000 else x >> 5
  {}

  lemma TermsUnfold(own: bv32, kings: bv32, empty: bv32, up3: bv32, up4: bv32, up5: bv32)
    ensures UpwardTerms(own, kings, empty, up3, up4, up5) ==
      (up4 & own) | (up3 & own & MASK_L3) | (up5 & own & MASK_L5)
      | ((empty << 4) & kings) | ((empty << 3) & kings & MASK_R3) | ((empty << 5) & kings & MASK_R5)
    ensures DownwardTerms(own, kings, empty, up3, up4, up5) ==
      ((empty << 4) & own) | ((empty << 3) & own & MASK_R3) | ((empty << 5) & own & MASK_R5)
      | (up4 & kings) | (up3 & kings & MASK_L3) | (up5 & kings & MASK_L5)
  {}

  lemma GeneratorUnfold(b: Board, arithmetic: bool, empty: bv32, up3: bv32, up4: bv32, up5: bv32)
    requires empty == Empty(b)
    requires up3 == ShiftRight(empty, 3, arithmetic)
    requires up4 == ShiftRight(empty, 4, arithmetic)
    requires up5 == ShiftRight(empty, 5, arithmetic)
    ensures Generator(b, Black, arithmetic) == UpwardTerms(Own(b, Black), OwnKings(b, Black), empty, up3, up4, up5)
    ensures Generator(b, White, arithmetic) == DownwardTerms(Own(b, White), OwnKings(b, White), empty, up3, up4, up5)
  {}

  /** The upward terms read at the single square m: m is in the result iff m
      is an own piece with an empty square above it, or an own king with an
      empty square below it. Every word is a parameter. */
  lemma UpwardAtMask(own: bv32, kings: bv32, empty: bv32, m: bv32, arithmetic: bool,
                     up3: bv32, up4: bv32, up5: bv32, r: bv32)
    requires SingleBit(m)
    requires arithmetic ==> m & 0xF000_0000 == 0
    requires up3 == if arithmetic && empty & 0x8000_0000 != 0 then (empty >> 3) | 0xE000_0000 else empty >> 3
    requires up4 == if arithmetic && empty & 0x8000_0000 != 0 then (empty >> 4) | 0xF000_0000 else empty >> 4
    requires up5 == if arithmetic && empty & 0x8000_0000 != 0 then (empty >> 5) | 0xF800_0000 else empty >> 5
    requires r == (up4 & own) | (up3 & own & MASK_L3) | (up5 & own & MASK_L5)
      | ((empty << 4) & kings) | ((empty << 3) & kings & MASK_R3) | ((empty << 5) & kings & MASK_R5)
    ensures r & m != 0 <==>
      || (own & m != 0 && (empty & (m << 4) != 0 || (MASK_L3 & m != 0 && empty & (m << 3) != 0)
                    || (MASK_L5 & m != 0 && empty & (m << 5) != 0)))
      || (kings & m != 0 && (empty & (m >> 4) != 0 || (MASK_R3 & m != 0 && empty & (m >> 3) != 0)
                      || (MASK_R5 & m != 0 && empty & (m >> 5) != 0)))
  {}

  /** The mirror image: men look below, kings also above. */
  lemma DownwardAtMask(own: bv32, kings: bv32, empty: bv32, m: bv32, arithmetic: bool,
                       up3: bv32, up4: bv32, up5: bv32, r: bv32)
    requires SingleBit(m)
    requires arithmetic && kings & m != 0 ==> m & 0xF000_0000 == 0
    requires up3 == if arithmetic && empty & 0x8000_0000 != 0 then (empty >> 3) | 0xE000_0000 else empty >> 3
    requires up4 == if arithmetic && empty & 0x8000_0000 != 0 then (empty >> 4) | 0xF000_0000 else empty >> 4
    requires up5 == if arithmetic && empty & 0x8000_0000 != 0 then (empty >> 5) | 0xF800_0000 else empty >> 5
    requires r == ((empty << 4) & own) | ((empty << 3) & own & MASK_R3) | ((empty << 5) & own & MASK_R5)
      | (up4 & kings) | (up3 & kings & MASK_L3) | (up5 & kings & MASK_L5)
    ensures r & m != 0 <==>
      || (own & m != 0 && (empty & (m >> 4) != 0 || (MASK_R3 & m != 0 && empty & (m >> 3) != 0)
                      || (MASK_R5 & m != 0 && empty & (m >> 5) != 0)))
      || (kings & m != 0 && (empty & (m << 4) != 0 || (MASK_L3 & m != 0 && empty & (m << 3) != 0)
                    || (MASK_L5 & m != 0 && empty & (m << 5) != 0)))
  {}

  /** Black's generator read at the single square m. The board's derived
      words are passed in as parameters equal to their definitions. */
  lemma BlackAtMask(b: Board, arithmetic: bool, m: bv32, own: bv32, kings: bv32,
                    empty: bv32, up3: bv32, up4: bv32, up5: bv32, g: bv32)
    requires SingleBit(m)
    requires arithmetic ==> m & 0xF000_0000 == 0
    requires own == Own(b, Black) && kings == OwnKings(b, Black) && empty == Empty(b)
    requires up3 == ShiftRight(empty, 3, arithmetic)
    requires up4 == ShiftRight(empty, 4, arithmetic)
    requires up5 == ShiftRight(empty, 5, arithmetic)
    requires g == Generator(b, Black, arithmetic)
    ensures g & m != 0 <==>
      || (own & m != 0 && (empty & (m << 4) != 0 || (MASK_L3 & m != 0 && empty & (m << 3) != 0)
                    || (MASK_L5 & m != 0 && empty & (m << 5) != 0)))
      || (kings & m != 0 && (empty & (m >> 4) != 0 || (MASK_R3 & m != 0 && empty & (m >> 3) != 0)
                      || (MASK_R5 & m != 0 && empty & (m >> 5) != 0)))
  {
    ShiftRightUnfold(empty, arithmetic);
    GeneratorUnfold(b, arithmetic, empty, up3, up4, up5);
    TermsUnfold(own, kings, empty, up3, up4, up5);
    UpwardAtMask(own, kings, empty, m, arithmetic, up3, up4, up5, g);
  }

  /** White's generator read at the single square m. */
  lemma WhiteAtMask(b: Board, arithmetic: bool, m: bv32, own: bv32, kings: bv32,
                    empty: bv32, up3: bv32, up4: bv32, up5: bv32, g: bv32)
    requires SingleBit(m)
    requires arithmetic && kings & m != 0 ==> m & 0xF000_0000 == 0
    requires own == Own(b, White) && kings == OwnKings(b, White) && empty == Empty(b)
    requires up3 == ShiftRight(empty, 3, arithmetic)
    requires up4 == ShiftRight(empty, 4, arithmetic)
    requires up5 == ShiftRight(empty, 5, arithmetic)
    requires g == Generator(b, White, arithmetic)
    ensures g & m != 0 <==>
      || (own & m != 0 && (empty & (m >> 4) != 0 || (MASK_R3 & m != 0 && empty & (m >> 3) != 0)
                      || (MASK_R5 & m != 0 && empty & (m >> 5) != 0)))
      || (kings & m != 0 && (empty & (m << 4) != 0 || (MASK_L3 & m != 0 && empty & (m << 3) != 0)
                    || (MASK_L5 & m != 0 && empty & (m << 5) != 0)))
  {
    ShiftRightUnfold(empty, arithmetic);
    GeneratorUnfold(b, arithmetic, empty, up3, up4, up5);
    TermsUnfold(own, kings, empty, up3, up4, up5);
    DownwardAtMask(own, kings, empty, m, arithmetic, up3, up4, up5, g);
  }

  /** The empty-square test at square s shifted up by k. */
  lemma UpNeighbour(b: Board, s: Square, k: Square)
    requires 3 <= k <= 5
    ensures Empty(b) & (Bit(s) << k) != 0 <==> VacantAt(b, s + k)
  {
    ShlBit(s, k);
    if s + k < 32 {
      BitIsSingle(s + k);
      NotSingle(b.black | b.white, Bit(s + k));
    }
  }

  /** The empty-square test at square s shifted down by k. */
  lemma DownNeighbour(b: Board, s: Square, k: Square)
    requires 3 <= k <= 5
    ensures Empty(b) & (Bit(s) >> k) != 0 <==> s >= k && VacantAt(b, s - k)
  {
    ShrBit(s, k);
    if s >= k {
      BitIsSingle(s - k);
      NotSingle(b.black | b.white, Bit(s - k));
    }
  }

  /** The mask-level upward test at Bit(s) is UpStep. */
  lemma UpStepAtMask(b: Board, s: Square)
    ensures (Empty(b) & (Bit(s) << 4) != 0 || (MASK_L3 & Bit(s) != 0 && Empty(b) & (Bit(s) << 3) != 0)
             || (MASK_L5 & Bit(s) != 0 && Empty(b) & (Bit(s) << 5) != 0)) <==> UpStep(b, s)
  {
    UpNeighbour(b, s, 3);
    UpNeighbour(b, s, 4);
    UpNeighbour(b, s, 5);
  }

  /** The mask-level downward test at Bit(s) is DownStep. */
  lemma DownStepAtMask(b: Board, s: Square)
    ensures (Empty(b) & (Bit(s) >> 4) != 0 || (MASK_R3 & Bit(s) != 0 && Empty(b) & (Bit(s) >> 3) != 0)
             || (MASK_R5 & Bit(s) != 0 && Empty(b) & (Bit(s) >> 5) != 0)) <==> DownStep(b, s)
  {
    DownNeighbour(b, s, 3);
    DownNeighbour(b, s, 4);
    DownNeighbour(b, s, 5);
  }

  /** A square holds one of the mover's kings iff it holds a piece of the
      mover and a king. */
  lemma OwnKingAt(b: Board, side: Side, s: Square)
    ensures OwnKings(b, side) & Bit(s) != 0 <==> Own(b, side) & Bit(s) != 0 && b.kings & Bit(s) != 0
  {
    BitIsSingle(s);
    assert OwnKings(b, side) == Own(b, side) & b.kings;
    OwnKingMask(Own(b, side), b.kings, OwnKings(b, side), Bit(s));
  }

  lemma OwnKingMask(own: bv32, kings: bv32, ownKings: bv32, m: bv32)
    requires ownKings == own & kings && SingleBit(m)
    ensures ownKings & m != 0 <==> own & m != 0 && kings & m != 0
  {}

  /** Black's generator read at Bit(s), with the board's words inline. */
  lemma BlackBits(b: Board, arithmetic: bool, s: Square)
    requires arithmetic ==> s <= 27
    ensures Generator(b, Black, arithmetic) & Bit(s) != 0 <==>
      || (Own(b, Black) & Bit(s) != 0 && (Empty(b) & (Bit(s) << 4) != 0 || (MASK_L3 & Bit(s) != 0 && Empty(b) & (Bit(s) << 3) != 0)
                    || (MASK_L5 & Bit(s) != 0 && Empty(b) & (Bit(s) << 5) != 0)))
      || (OwnKings(b, Black) & Bit(s) != 0 && (Empty(b) & (Bit(s) >> 4) != 0 || (MASK_R3 & Bit(s) != 0 && Empty(b) & (Bit(s) >> 3) != 0)
                      || (MASK_R5 & Bit(s) != 0 && Empty(b) & (Bit(s) >> 5) != 0)))
  {
    BitIsSingle(s);
    if s <= 27 {
      LowSquare(s);
    }
    BlackAtMask(b, arithmetic, Bit(s), Own(b, Black), OwnKings(b, Black), Empty(b),
                ShiftRight(Empty(b), 3, arithmetic), ShiftRight(Empty(b), 4, arithmetic),
                ShiftRight(Empty(b), 5, arithmetic), Generator(b, Black, arithmetic));
  }

  /** White's generator read at Bit(s), with the board's words inline. */
  lemma WhiteBits(b: Board, arithmetic: bool, s: Square)
    requires arithmetic && b.kings & Bit(s) != 0 ==> s <= 27
    ensures Generator(b, White, arithmetic) & Bit(s) != 0 <==>
      || (Own(b, White) & Bit(s) != 0 && (Empty(b) & (Bit(s) >> 4) != 0 || (MASK_R3 & Bit(s) != 0 && Empty(b) & (Bit(s) >> 3) != 0)
                      || (MASK_R5 & Bit(s) != 0 && Empty(b) & (Bit(s) >> 5) != 0)))
      || (OwnKings(b, White) & Bit(s) != 0 && (Empty(b) & (Bit(s) << 4) != 0 || (MASK_L3 & Bit(s) != 0 && Empty(b) & (Bit(s) << 3) != 0)
                    || (MASK_L5 & Bit(s) != 0 && Empty(b) & (Bit(s) << 5) != 0)))
  {
    BitIsSingle(s);
    OwnKingAt(b, White, s);
    if s <= 27 {
      LowSquare(s);
    }
    WhiteAtMask(b, arithmetic, Bit(s), Own(b, White), OwnKings(b, White), Empty(b),
                ShiftRight(Empty(b), 3, arithmetic), ShiftRight(Empty(b), 4, arithmetic),
                ShiftRight(Empty(b), 5, arithmetic), Generator(b, White, arithmetic));
  }

  /** Black's generator at square s: a black piece with an upward step, or a
      black king with a downward one. */
  lemma BlackSteps(b: Board, arithmetic: bool, s: Square)
    requires arithmetic ==> s <= 27
    ensures Has(Generator(b, Black, arithmetic), s) <==>
      Has(Own(b, Black), s) && (UpStep(b, s) || (Has(b.kings, s) && DownStep(b, s)))
  {
    BlackBits(b, arithmetic, s);
    UpStepAtMask(b, s);
    DownStepAtMask(b, s);
    OwnKingAt(b, Black, s);
    assert Has(Generator(b, Black, arithmetic), s) == (Generator(b, Black, arithmetic) & Bit(s) != 0);
    assert Has(Own(b, Black), s) == (Own(b, Black) & Bit(s) != 0);
    assert Has(b.kings, s) == (b.kings & Bit(s) != 0);
  }

  /** White's generator at square s: a white piece with a downward step, or a
      white king with an upward one. */
  lemma WhiteSteps(b: Board, arithmetic: bool, s: Square)
    requires arithmetic && Has(b.kings, s) ==> s <= 27
    ensures Has(Generator(b, White, arithmetic), s) <==>
      Has(Own(b, White), s) && (DownStep(b, s) || (Has(b.kings, s) && UpStep(b, s)))
  {
    assert Has(b.kings, s) == (b.kings & Bit(s) != 0);
    WhiteBits(b, arithmetic, s);
    UpStepAtMask(b, s);
    DownStepAtMask(b, s);
    OwnKingAt(b, White, s);
    assert Has(Generator(b, White, arithmetic), s) == (Generator(b, White, arithmetic) & Bit(s) != 0);
    assert Has(Own(b, White), s) == (Own(b, White) & Bit(s) != 0);
  }

  /** The generator at square s, in terms of the up and down steps. */
  lemma GeneratorSquare(b: Board, side: Side, arithmetic: bool, s: Square)
    requires arithmetic && (side == Black || Has(b.kings, s)) ==> s <= 27
    ensures Has(Generator(b, side, arithmetic), s) <==>
      Has(Own(b, side), s) && (if side == Black then UpStep(b, s) || (Has(b.kings, s) && DownStep(b, s))
                               else DownStep(b, s) || (Has(b.kings, s) && UpStep(b, s)))
  {
    if side == Black {
      BlackSteps(b, arithmetic, s);
    } else {
      WhiteSteps(b, arithmetic, s);
    }
  }

  lemma UpStepGeometry(b: Board, s: Square)
    ensures UpStep(b, s) <==> exists t: Square :: Diagonal(s, t) && VacantAt(b, t) && s < t
  {
    if UpStep(b, s) {
      UpStepWitness(b, s);
    }
    if t: Square :| Diagonal(s, t) && VacantAt(b, t) && s < t {
      DiagonalSteps(s, t);
    }
  }

  /** A shift step names a diagonal neighbour on the board. */
  lemma UpStepWitness(b: Board, s: Square)
    requires UpStep(b, s)
    ensures exists t: Square :: Diagonal(s, t) && VacantAt(b, t) && s < t
  {
    var t: Square;
    if VacantAt(b, s + 4) {
      t := s + 4;
    } else if Has(MASK_L3, s) && VacantAt(b, s + 3) {
      t := s + 3;
    } else {
      t := s + 5;
    }
    DiagonalSteps(s, t);
    assert Diagonal(s, t) && VacantAt(b, t) && s < t;
  }


  lemma DownStepGeometry(b: Board, s: Square)
    ensures DownStep(b, s) <==> exists t: Square :: Diagonal(s, t) && VacantAt(b, t) && t < s
  {
    if DownStep(b, s) {
      DownStepWitness(b, s);
    }
    if t: Square :| Diagonal(s, t) && VacantAt(b, t) && t < s {
      DiagonalSteps(s, t);
    }
  }

  /** A shift step names a diagonal neighbour on the board. */
  lemma DownStepWitness(b: Board, s: Square)
    requires DownStep(b, s)
    ensures exists t: Square :: Diagonal(s, t) && VacantAt(b, t) && t < s
  {
    var t: Square;
    if s >= 4 && VacantAt(b, s - 4) {
      t := s - 4;
    } else if Has(MASK_R3, s) && VacantAt(b, s - 3) {
      t := s - 3;
    } else {
      t := s - 5;
    }
    DiagonalSteps(s, t);
    assert Diagonal(s, t) && VacantAt(b, t) && t < s;
  }


  /** The generator agrees with the reference definition wherever its right
      shifts do not reach past bit 31. */
  lemma GeneratorCharacterised(b: Board, side: Side, arithmetic: bool, s: Square)
    requires arithmetic && (side == Black || Has(b.kings, s)) ==> s <= 27
    ensures Has(Generator(b, side, arithmetic), s) <==> CanStep(b, side, s)
  {
    GeneratorSquare(b, side, arithmetic, s);
    StepsCharacterised(b, side, s);
  }

  /** The reference predicate in terms of the shift steps. */
  lemma StepsCharacterised(b: Board, side: Side, s: Square)
    ensures CanStep(b, side, s) <==>
      Has(Own(b, side), s) && (if side == Black then UpStep(b, s) || (Has(b.kings, s) && DownStep(b, s))
                               else DownStep(b, s) || (Has(b.kings, s) && UpStep(b, s)))
  {
    UpStepGeometry(b, s);
    DownStepGeometry(b, s);
    if CanStep(b, side, s) {
      var t: Square :| Diagonal(s, t) && VacantAt(b, t) && Direction(b, side, s, t);
      assert s != t;
    }
  }

  /** For black, get_moves is exact on squares 0..27. */
  lemma BlackMovesExact(b: Board, s: Square)
    requires s <= 27
    ensures Has(GetMoves(b, Black), s) <==> CanStep(b, Black, s)
  {
    GeneratorCharacterised(b, Black, true, s);
  }

  /** For white, get_moves is exact on squares 0..27 and for men everywhere. */
  lemma WhiteMovesExact(b: Board, s: Square)
    requires s <= 27 || !Has(b.kings, s)
    ensures Has(GetMoves(b, White), s) <==> CanStep(b, White, s)
  {
    GeneratorCharacterised(b, White, true, s);
  }

  /** A white man on 0..3 is never movable. */
  lemma WhiteMenStuckOnLastRow(b: Board, s: Square)
    requires s < 4 && !Has(b.kings, s)
    ensures !Has(GetMoves(b, White), s)
  {
    GeneratorSquare(b, White, true, s);
  }

  /** On squares 0..27, a black man moves by +4, +3 or +5 only and a black king
      also by -4, -3, -5; the masks guard the 3- and 5-steps. */
  lemma BlackMovesBits(b: Board, s: Square)
    requires s <= 27
    ensures Has(GetMoves(b, Black), s) <==>
      Has(b.black, s) && (UpStep(b, s) || (Has(b.kings, s) && DownStep(b, s)))
  {
    GeneratorSquare(b, Black, true, s);
  }

  /** A white man moves by -4, -3 or -5 only; a white king on 0..27 also by
      +4, +3, +5. */
  lemma WhiteMovesBits(b: Board, s: Square)
    requires s <= 27 || !Has(b.kings, s)
    ensures Has(GetMoves(b, White), s) <==>
      Has(b.white, s) && (DownStep(b, s) || (Has(b.kings, s) && UpStep(b, s)))
  {
    GeneratorSquare(b, White, true, s);
  }

  /** The arithmetic shift makes get_moves report a white king on 28 whose
      only diagonal neighbour, 24, is occupied, because square 31 is empty. */
  lemma SignExtensionCounterexample()
    ensures var b := Board(0x0100_0000, 0x1000_0000, 0x1000_0000, White);
      Has(GetMoves(b, White), 28) && !CanStep(b, White, 28)
  {
    var b := Board(0x0100_0000, 0x1000_0000, 0x1000_0000, White);
    if CanStep(b, White, 28) {
      var t: Square :| Diagonal(28, t) && VacantAt(b, t) && Direction(b, White, 28, t);
      DiagonalSteps(28, t);
      assert false;
    }
  }

  /** With logical right shifts the generator is exact on every square. */
  lemma MovablesExact(b: Board, side: Side, s: Square)
    ensures Has(Movables(b, side), s) <==> CanStep(b, side, s)
  {
    GeneratorCharacterised(b, side, false, s);
  }
}

=== FILE: bits.dfy ===
/**
 * Thirty-two-bit bitsets as the checkers bitboard stores them: bit i of a word
 * stands for dark square i. The board words are numpy int32 values, so a right
 * shift copies the sign bit; that is written out here rather than assumed away.
 */
module Bits {

  /** Index of one of the 32 dark squares. It is a bit-vector so that shifting
      a word by a square index stays inside the bit-vector theory. */
  type Square = i: bv32 | i < 32

  /** The one-square bitset {i}, `1 << i` in the source. */
  function Bit(i: Square): bv32 {
    1 << i
  }

  /** Square i belongs to the bitset x. */
  predicate Has(x: bv32, i: Square) {
    x & Bit(i) != 0
  }

  /** x holds exactly one square. */
  predicate SingleBit(x: bv32) {
    x != 0 && x & (x - 1) == 0
  }

  /** `x >> k` on a numpy int32: an arithmetic shift, which fills the vacated
      high bits with copies of bit 31. */
  function ArithShiftRight(x: bv32, k: Square): bv32 {
    if x & 0x8000_0000 == 0 then x >> k else (x >> k) | !(0xFFFF_FFFF >> k)
  }

  lemma BitIsSingle(i: Square)
    ensures SingleBit(Bit(i))
  {}

  /** Shifting the bitset {i} left by 3, 4 or 5 moves its one member up by
      that much; a shift past bit 31 yields the empty set. */
  lemma ShlBit(i: Square, k: Square)
    requires 3 <= k <= 5
    ensures Bit(i) << k == if i + k < 32 then Bit(i + k) else 0
  {}

  /** Shifting the bitset {i} right by 3, 4 or 5 moves its one member down by
      that much; a shift below bit 0 yields the empty set. */
  lemma ShrBit(i: Square, k: Square)
    requires 3 <= k <= 5
    ensures Bit(i) >> k == if i >= k then Bit(i - k) else 0
  {}

  /** A single square is in x & y iff it is in both. */
  lemma AndSingle(x: bv32, y: bv32, m: bv32)
    requires SingleBit(m)
    ensures (x & y) & m != 0 <==> x & m != 0 && y & m != 0
  {}

  /** A single square is in x | y iff it is in either. */
  lemma OrSingle(x: bv32, y: bv32, m: bv32)
    requires SingleBit(m)
    ensures (x | y) & m != 0 <==> x & m != 0 || y & m != 0
  {}

  /** Membership unfolded to the mask test it stands for. */
  lemma HasDef(x: bv32, s: Square)
    ensures Has(x, s) == (x & Bit(s) != 0)
  {}

  /** Square s is in x & y iff it is in both. */
  lemma HasAnd(x: bv32, y: bv32, s: Square)
    ensures Has(x & y, s) <==> Has(x, s) && Has(y, s)
  {
    HasDef(x & y, s);
    HasDef(x, s);
    HasDef(y, s);
    BitIsSingle(s);
    AndSingle(x, y, Bit(s));
  }

  /** Square s is in x | y iff it is in either. */
  lemma HasOr(x: bv32, y: bv32, s: Square)
    ensures Has(x | y, s) <==> Has(x, s) || Has(y, s)
  {
    HasDef(x | y, s);
    HasDef(x, s);
    HasDef(y, s);
    BitIsSingle(s);
    OrSingle(x, y, Bit(s));
  }

  /** A single square is in the complement of x iff it is not in x. */
  lemma NotSingle(x: bv32, m: bv32)
    requires SingleBit(m)
    ensures !x & m != 0 <==> x & m == 0
  {}

  /** The squares 0..27 lie below the top four bits. */
  lemma LowSquare(i: Square)
    requires i <= 27
    ensures Bit(i) & 0xF000_0000 == 0
  {}

  /** count_bits: the number of squares in x. */
  function PopCount(x: bv32): nat
    decreases x
  {
    if x == 0 then 0 else (if x & 1 == 1 then 1 else 0) + PopCount(x >> 1)
  }

  lemma {:induction false} PopCountZero(x: bv32)
    ensures PopCount(x) == 0 <==> x == 0
    decreases x
  {
    if x != 0 && x & 1 != 1 {
      PopCountZero(x >> 1);
    }
  }

  /** A bitset counts one square exactly when it is a single bit. */
  lemma {:induction false} PopCountOne(x: bv32)
    ensures PopCount(x) == 1 <==> SingleBit(x)
    decreases x
  {
    if x != 0 {
      PopCountZero(x >> 1);
      if x & 1 != 1 {
        PopCountOne(x >> 1);
      }
    }
  }

  /** 2 to the k, as an unbounded integer. */
  function Pow2(k: nat): (r: nat)
    ensures r > 0
  {
    if k == 0 then 1 else 2 * Pow2(k - 1)
  }

  /** The square with index n. */
  function ToSquare(n: nat): (s: Square)
    requires n < 32
    ensures s as int == n
  {
    if n == 0 then 0 else ToSquare(n - 1) + 1
  }
}

=== FILE: deepening.dfy ===
/**
 * Iterative deepening at the root (`ids`): search the root moves at depth 1,
 * 2, ... until a search leaves the `unexplored` flag down, keeping the first
 * best move of the last finished depth and trying the moves in order of
 * their last scores.
 *
 * The clock is an oracle: `late(d)` says whether more than half the time
 * limit has passed after the search at depth d, and `alarm` is the number of
 * depths that finish before the alarm signal interrupts the next one.
 */
module Deepening {
  import opened AlphaBeta

  /** A root move and the game tree after it. */
  datatype Branch = Branch(move: int, subtree: Tree)

  /** The trees after each move, in move order. */
  function Subtrees(moves: seq<Branch>): (r: seq<Tree>)
    ensures |r| == |moves|
    ensures forall i :: 0 <= i < |moves| ==> r[i] == moves[i].subtree
  {
    seq(|moves|, i requires 0 <= i < |moves| => moves[i].subtree)
  }

  /** The root position: its evaluation and the trees after its moves. */
  function Root(score: int, moves: seq<Branch>): Tree {
    Node(score, Subtrees(moves))
  }

  // ------------------------------------------------------------ argmax

  /** `np.argmax`: the first index of a largest element. */
  function FirstArgmax(s: seq<int>): (j: nat)
    requires |s| > 0
    ensures j < |s|
    ensures forall k :: 0 <= k < |s| ==> s[k] <= s[j]
    ensures forall k :: 0 <= k < j ==> s[k] < s[j]
  {
    if |s| == 1 then 0
    else
      var j := FirstArgmax(s[..|s| - 1]);
      if s[j] < s[|s| - 1] then |s| - 1 else j
  }

  /** The index the contract of FirstArgmax describes is unique. */
  lemma FirstArgmaxUnique(s: seq<int>, j: nat)
    requires j < |s|
    requires forall k :: 0 <= k < |s| ==> s[k] <= s[j]
    requires forall k :: 0 <= k < j ==> s[k] < s[j]
    ensures FirstArgmax(s) == j
  {
    var a := FirstArgmax(s);
    assert !(a < j) && !(j < a);
  }

  // ------------------------------------------------------------ reordering

  /** Each score paired with its move. */
  function Zip<T>(scores: seq<int>, moves: seq<T>): (r: seq<(int, T)>)
    requires |scores| == |moves|
    ensures |r| == |moves|
    ensures forall i :: 0 <= i < |r| ==> r[i] == (scores[i], moves[i])
  {
    seq(|moves|, i requires 0 <= i < |moves| => (scores[i], moves[i]))
  }

  /** The moves of a list of scored moves. */
  function Seconds<T>(s: seq<(int, T)>): (r: seq<T>)
    ensures |r| == |s|
    ensures forall i :: 0 <= i < |s| ==> r[i] == s[i].1
  {
    seq(|s|, i requires 0 <= i < |s| => s[i].1)
  }

  predicate NonIncreasing<T>(s: seq<(int, T)>) {
    forall i, j :: 0 <= i < j < |s| ==> s[j].0 <= s[i].0
  }

  /** Insert x into a list sorted by non-increasing score, after the entries
      that score at least as much. */
  function Insert<T>(x: (int, T), s: seq<(int, T)>): seq<(int, T)>
    decreases |s|
  {
    if s == [] then [x]
    else if x.0 <= s[0].0 then [s[0]] + Insert(x, s[1..])
    else [x] + s
  }

  /** Sort scored moves by non-increasing score: the order
      `np.argsort(-np.array(scores))` produces, up to the order of ties. */
  function SortDescending<T>(s: seq<(int, T)>): seq<(int, T)>
    decreases |s|
  {
    if s == [] then [] else Insert(s[0], SortDescending(s[1..]))
  }

  /** `[moves[i] for i in np.argsort(-np.array(scores))]`. */
  function Reorder<T>(moves: seq<T>, scores: seq<int>): seq<T>
    requires |scores| == |moves|
  {
    Seconds(SortDescending(Zip(scores, moves)))
  }

  /** Every score in s is at most b. */
  predicate AtMost<T>(s: seq<(int, T)>, b: int) {
    forall i :: 0 <= i < |s| ==> s[i].0 <= b
  }

  lemma {:induction false} InsertAtMost<T>(x: (int, T), s: seq<(int, T)>, b: int)
    requires AtMost(s, b) && x.0 <= b
    ensures AtMost(Insert(x, s), b)
    decreases |s|
  {
    if s != [] && x.0 <= s[0].0 {
      InsertAtMost(x, s[1..], b);
      var r := Insert(x, s[1..]);
      assert Insert(x, s) == [s[0]] + r;
    }
  }

  lemma {:induction false} InsertSorted<T>(x: (int, T), s: seq<(int, T)>)
    requires NonIncreasing(s)
    ensures NonIncreasing(Insert(x, s))
    decreases |s|
  {
    if s != [] && x.0 <= s[0].0 {
      InsertSorted(x, s[1..]);
      InsertAtMost(x, s[1..], s[0].0);
      var r := Insert(x, s[1..]);
      var t := Insert(x, s);
      assert t == [s[0]] + r;
      forall i, j | 0 <= i < j < |t|
        ensures t[j].0 <= t[i].0
      {
        assert t[j] == r[j - 1];
        if i > 0 {
          assert t[i] == r[i - 1];
        }
      }
    }
  }

  lemma {:induction false} InsertMultiset<T>(x: (int, T), s: seq<(int, T)>)
    ensures multiset(Insert(x, s)) == multiset(s) + multiset{x}
    decreases |s|
  {
    if s != [] && x.0 <= s[0].0 {
      InsertMultiset(x, s[1..]);
      assert s == [s[0]] + s[1..];
    }
  }

  lemma SecondsCons<T>(a: (int, T), r: seq<(int, T)>)
    ensures Seconds([a] + r) == [a.1] + Seconds(r)
  {}

  lemma {:induction false} InsertSeconds<T>(x: (int, T), s: seq<(int, T)>)
    ensures multiset(Seconds(Insert(x, s))) == multiset(Seconds(s)) + multiset{x.1}
    decreases |s|
  {
    if s == [] {
      SecondsCons(x, s);
    } else if x.0 <= s[0].0 {
      InsertSeconds(x, s[1..]);
      SecondsCons(s[0], Insert(x, s[1..]));
      SecondsCons(s[0], s[1..]);
      assert s == [s[0]] + s[1..];
    } else {
      SecondsCons(x, s);
    }
  }

  /** The sorted list is ordered by non-increasing score ... */
  lemma {:induction false} SortDescendingSorted<T>(s: seq<(int, T)>)
    ensures NonIncreasing(SortDescending(s))
    decreases |s|
  {
    if s != [] {
      SortDescendingSorted(s[1..]);
      InsertSorted(s[0], SortDescending(s[1..]));
    }
  }

  /** ... is a permutation of the input ... */
  lemma {:induction false} SortDescendingPermutes<T>(s: seq<(int, T)>)
    ensures multiset(SortDescending(s)) == multiset(s)
    decreases |s|
  {
    if s != [] {
      SortDescendingPermutes(s[1..]);
      InsertMultiset(s[0], SortDescending(s[1..]));
      assert s == [s[0]] + s[1..];
    }
  }

  /** ... and so are its moves. */
  lemma {:induction false} SortDescendingSeconds<T>(s: seq<(int, T)>)
    ensures multiset(Seconds(SortDescending(s))) == multiset(Seconds(s))
    decreases |s|
  {
    if s != [] {
      SortDescendingSeconds(s[1..]);
      InsertSeconds(s[0], SortDescending(s[1..]));
      SecondsCons(s[0], s[1..]);
      assert s == [s[0]] + s[1..];
    }
  }

  /** The next depth's move list is a permutation of the current one, and
      the scores, carried along, are non-increasing. */
  lemma ReorderPermutes<T>(moves: seq<T>, scores: seq<int>)
    requires |scores| == |moves|
    ensures multiset(Reorder(moves, scores)) == multiset(moves)
    ensures NonIncreasing(SortDescending(Zip(scores, moves)))
    ensures multiset(SortDescending(Zip(scores, moves))) == multiset(Zip(scores, moves))
  {
    SortDescendingSorted(Zip(scores, moves));
    SortDescendingPermutes(Zip(scores, moves));
    SortDescendingSeconds(Zip(scores, moves));
    assert Seconds(Zip(scores, moves)) == moves;
  }

  // ------------------------------------------------------------ the root

  /** `minimax` at the root with depth at least 1 returns one score per
      move; each score bounds its move's value from above, and the first
      largest score is exact and equals the minimax value of the root. */
  lemma RootMinimax(t: Tree, depth: nat)
    requires |t.children| > 0 && depth > 0
    ensures var r := RootSearch(t, depth);
            r.Scores? && |r.values| == |t.children|
            && (forall i :: 0 <= i < |t.children| ==> Minimax(t.children[i], depth - 1, false) <= r.values[i])
            && var j := FirstArgmax(r.values);
               r.values[j] == Minimax(t.children[j], depth - 1, false)
               && r.values[j] == Minimax(t, depth, true)
  {
    var cs := t.children;
    RootLoopUpper(cs, depth, NegInf, NegInf);
    var vs := RootSearch(t, depth).values;
    var j := FirstArgmax(vs);
    RootLoopExact(cs, depth, NegInf, NegInf, j);
    MaxOfUpper(cs, depth);
    MaxOfAttained(cs, depth);
    var k :| 0 <= k < |cs| && MaxOf(cs, depth) == Minimax(cs[k], depth - 1, false);
    assert vs[k] <= vs[j];
  }

  /** The first best-scored root move is a best move at that depth: no move
      has a larger minimax value. */
  lemma BestMoveAtDepth(score: int, moves: seq<Branch>, depth: nat)
    requires |moves| > 0 && depth > 0
    ensures var r := RootSearch(Root(score, moves), depth);
            r.Scores? && |r.values| == |moves|
            && var j := FirstArgmax(r.values);
               forall i :: 0 <= i < |moves| ==>
                 Minimax(moves[i].subtree, depth - 1, false) <= Minimax(moves[j].subtree, depth - 1, false)
  {
    RootMinimax(Root(score, moves), depth);
  }

  /** Each root move's tree is lower than the root's. */
  lemma ChildLower(score: int, moves: seq<Branch>, b: Branch)
    requires b in moves
    ensures Height(b.subtree) < Height(Root(score, moves))
  {
    var t := Root(score, moves);
    var i :| 0 <= i < |moves| && moves[i] == b;
    var hs := seq(|t.children|, k requires 0 <= k < |t.children| => Height(t.children[k]));
    assert hs[i] == Height(b.subtree);
  }

  /** A root search that raised the flag, over any order of the moves, was
      shallower than the tree. */
  lemma TruncatedRootBelowHeight(score: int, order: seq<Branch>, moves: seq<Branch>, depth: nat)
    requires multiset(order) == multiset(moves)
    requires depth > 0 && Truncated(Root(score, order), depth)
    ensures depth < Height(Root(score, moves))
  {
    var t := Root(score, order);
    var i :| 0 <= i < |t.children| && Truncated(t.children[i], depth - 1);
    assert order[i] in multiset(moves);
    if depth - 1 >= Height(order[i].subtree) {
      DeepEnoughNotTruncated(order[i].subtree, depth - 1);
    }
    ChildLower(score, moves, order[i]);
  }

  // ------------------------------------------------------------ ids

  datatype Result = Failure | Success(choice: Branch)

  /** One pass of the deepening loop: search the root at `depth` with the
      moves in the order `current`, pick the first best move and sort the
      moves by their scores for the next pass. */
  method SearchDepth(score: int, moves: seq<Branch>, current: seq<Branch>, depth: nat)
      returns (best: Branch, next: seq<Branch>, unexplored: bool)
    requires |moves| > 0 && depth > 0
    requires multiset(current) == multiset(moves)
    ensures best in moves
    ensures forall b :: b in moves ==>
              Minimax(b.subtree, depth - 1, false) <= Minimax(best.subtree, depth - 1, false)
    ensures multiset(next) == multiset(moves) && |next| == |moves|
    ensures unexplored == RootSearch(Root(score, current), depth).unexplored
    ensures unexplored ==> depth < Height(Root(score, moves))
  {
    assert |current| == |moves| by {
      assert |multiset(current)| == |multiset(moves)|;
    }
    var result := RootSearch(Root(score, current), depth);
    BestMoveAtDepth(score, current, depth);
    var j := FirstArgmax(result.values);
    best := current[j];
    assert best in multiset(moves);
    forall b | b in moves
      ensures Minimax(b.subtree, depth - 1, false) <= Minimax(best.subtree, depth - 1, false)
    {
      assert b in multiset(current);
      var i :| 0 <= i < |current| && current[i] == b;
    }
    ReorderPermutes(current, result.values);
    next := Reorder(current, result.values);
    assert |next| == |moves| by {
      assert |multiset(next)| == |multiset(moves)|;
    }
    unexplored := result.unexplored;
    if unexplored {
      RootFlagSound(Root(score, current), depth);
      TruncatedRootBelowHeight(score, current, moves, depth);
    }
  }

  /** `ids(board)` on a root with evaluation `score` and the given moves.
      It fails when there is no move (indexing the empty move list) or when
      the alarm interrupts the first depth before any move was chosen; with
      one move it answers at once; otherwise it answers the first best move
      of the last depth it finished, `searched`. The loop stops on the alarm,
      on the half-time test, or when the search leaves the flag down; in the
      last case, whichever exit came first, that search was final: on the
      same move order every deeper search gives the same scores and flag. */
  method Ids(score: int, moves: seq<Branch>, alarm: nat, late: nat -> bool) returns (r: Result, searched: nat)
    ensures |moves| == 0 ==> r == Failure
    ensures |moves| == 1 ==> r == Success(moves[0]) && searched == 0
    ensures |moves| > 1 ==> (r == Failure <==> alarm == 0)
    ensures r.Success? ==> r.choice in moves
    ensures r.Success? && |moves| > 1 ==>
              1 <= searched <= alarm
              && forall b :: b in moves ==>
                   Minimax(b.subtree, searched - 1, false) <= Minimax(r.choice.subtree, searched - 1, false)
    ensures r.Success? && |moves| > 1 && searched < alarm && !late(searched) ==>
              exists order :: multiset(order) == multiset(moves)
                              && !RootSearch(Root(score, order), searched).unexplored
                              && forall d :: d >= searched ==>
                                   RootSearch(Root(score, order), d) == RootSearch(Root(score, order), searched)
    ensures r.Success? && |moves| > 1 ==>
              exists order :: multiset(order) == multiset(moves)
                              && (RootSearch(Root(score, order), searched).unexplored ==> searched == alarm || late(searched))
                              && (!RootSearch(Root(score, order), searched).unexplored ==>
                                    forall d :: d >= searched ==>
                                      RootSearch(Root(score, order), d) == RootSearch(Root(score, order), searched))
  {
    if |moves| == 0 {
      return Failure, 0;
    }
    if |moves| == 1 {
      return Success(moves[0]), 0;
    }
    ghost var height := Height(Root(score, moves));
    ChildLower(score, moves, moves[0]);
    var current := moves;
    var depth := 1;
    var unexplored := true;
    var best := moves[0];
    ghost var order := moves;
    while unexplored
      invariant 1 <= depth <= height + 1
      invariant unexplored ==> depth <= height
      invariant multiset(current) == multiset(moves) && |current| == |moves|
      invariant depth - 1 <= alarm
      invariant depth > 1 ==> best in moves
      invariant depth > 1 ==> forall b :: b in moves ==>
                  Minimax(b.subtree, depth - 2, false) <= Minimax(best.subtree, depth - 2, false)
      invariant !unexplored ==> depth > 1
      invariant depth > 1 ==> multiset(order) == multiset(moves)
                              && RootSearch(Root(score, order), depth - 1).unexplored == unexplored
      decreases height + 1 - depth
    {
      if depth - 1 == alarm {
        if depth == 1 {
          return Failure, 0;
        }
        return Success(best), depth - 1;
      }
      order := current;
      best, current, unexplored := SearchDepth(score, moves, current, depth);
      if late(depth) {
        if !unexplored {
          forall d | d >= depth
            ensures RootSearch(Root(score, order), d) == RootSearch(Root(score, order), depth)
          {
            RootFinal(Root(score, order), depth, d);
          }
        }
        return Success(best), depth;
      }
      depth := depth + 1;
    }
    forall d | d >= depth - 1
      ensures RootSearch(Root(score, order), d) == RootSearch(Root(score, order), depth - 1)
    {
      RootFinal(Root(score, order), depth - 1, d);
    }
    return Success(best), depth - 1;
  }
}

=== FILE: evaluation.dfy ===
/**
 * The static evaluation of the search: a score from black's point of view,
 * built from material, advancement, central kings and back-rank defence in
 * the early and middle game, or from king advantage, distance and corners in
 * the endgame; then a bonus for the side to move, and a sign flip when the
 * search plays white.
 *
 * The source mixes halves (a king counts one and a half) with products, so
 * every score is a multiple of a quarter point. Scores here are integers in
 * QUARTER points; the source's +3 for the side to move is +12 here.
 */
module Evaluation {
  import opened Bits
  import opened Bitboard

  function Abs(x: int): nat {
    if x < 0 then -x else x
  }

  // ------------------------------------------------------------ bit digits

  /** Python's `a & b` on non-negative integers. */
  function AndNat(a: nat, b: nat): nat
    decreases a
  {
    if a == 0 || b == 0 then 0
    else 2 * AndNat(a / 2, b / 2) + (if a % 2 == 1 && b % 2 == 1 then 1 else 0)
  }

  /** The indices of the '1' digits of n in binary, least significant first,
      counted from i: the walk `enumerate(bin(n)[:1:-1])` makes. */
  function Digits(n: nat, i: nat): (r: seq<nat>)
    ensures forall k :: 0 <= k < |r| ==> r[k] >= i
    decreases n
  {
    if n == 0 then []
    else (if n % 2 == 1 then [i] else []) + Digits(n / 2, i + 1)
  }

  /** The integer a numpy int32 word stands for. */
  function Signed(x: bv32): int {
    if x & 0x8000_0000 == 0 then x as int else x as int - 0x1_0000_0000
  }

  /** `bin(x)` prints the magnitude of a negative int32 after a minus sign, so
      the digits the distance walks are those of |x|, not of the 32-bit word. */
  function Magnitude(x: bv32): (m: nat)
    ensures m == Abs(Signed(x))
  {
    if x & 0x8000_0000 == 0 then x as int else 0x1_0000_0000 - x as int
  }

  // ------------------------------------------------------------ pair sums

  /** The sum of d(x, y) over y in ys. */
  function RowSum(x: nat, ys: seq<nat>, d: (nat, nat) -> nat): nat
    decreases |ys|
  {
    if ys == [] then 0 else d(x, ys[0]) + RowSum(x, ys[1..], d)
  }

  /** The sum of d(x, y) over x in xs, y in ys: the two nested loops of
      total_distance. */
  function PairSum(xs: seq<nat>, ys: seq<nat>, d: (nat, nat) -> nat): nat
    decreases |xs|
  {
    if xs == [] then 0 else RowSum(xs[0], ys, d) + PairSum(xs[1..], ys, d)
  }

  /** The sum of d(x, y) over x in xs, for one y. */
  function ColumnSum(xs: seq<nat>, y: nat, d: (nat, nat) -> nat): nat
    decreases |xs|
  {
    if xs == [] then 0 else d(xs[0], y) + ColumnSum(xs[1..], y, d)
  }

  /** Peeling the first y off every row. */
  lemma {:induction false} PairSumFirstColumn(xs: seq<nat>, y: nat, ys: seq<nat>, d: (nat, nat) -> nat)
    ensures PairSum(xs, [y] + ys, d) == ColumnSum(xs, y, d) + PairSum(xs, ys, d)
    decreases |xs|
  {
    if xs != [] {
      assert ([y] + ys)[1..] == ys;
      PairSumFirstColumn(xs[1..], y, ys, d);
    }
  }

  /** With a symmetric d a column sum is a row sum. */
  lemma {:induction false} ColumnIsRow(xs: seq<nat>, y: nat, d: (nat, nat) -> nat)
    requires forall a, b :: d(a, b) == d(b, a)
    ensures ColumnSum(xs, y, d) == RowSum(y, xs, d)
    decreases |xs|
  {
    if xs != [] {
      ColumnIsRow(xs[1..], y, d);
    }
  }

  /** Summing over pairs does not depend on which list is walked outside,
      when d is symmetric. */
  lemma {:induction false} PairSumSymmetric(xs: seq<nat>, ys: seq<nat>, d: (nat, nat) -> nat)
    requires forall a, b :: d(a, b) == d(b, a)
    ensures PairSum(xs, ys, d) == PairSum(ys, xs, d)
    decreases |ys|
  {
    if ys == [] {
      PairSumNoColumns(xs, d);
    } else {
      assert ys == [ys[0]] + ys[1..];
      PairSumFirstColumn(xs, ys[0], ys[1..], d);
      ColumnIsRow(xs, ys[0], d);
      PairSumSymmetric(xs, ys[1..], d);
    }
  }

  /** No inner elements, no terms. */
  lemma {:induction false} PairSumNoColumns(xs: seq<nat>, d: (nat, nat) -> nat)
    ensures PairSum(xs, [], d) == 0
    decreases |xs|
  {
    if xs != [] {
      PairSumNoColumns(xs[1..], d);
    }
  }

  // ------------------------------------------------------- total_distance

  /** The file total_distance gives a bit index: it tests the INDEX, not the
      square's bit, against 0x0f0f0f0f. */
  function FileAsWritten(bit: nat): nat {
    if AndNat(bit, 0x0f0f0f0f) != 0 then 2 * (bit % 4) + 1 else 2 * (bit % 4)
  }

  /** The distance total_distance adds for one pair of bit indices. */
  function DistanceAsWritten(bit1: nat, bit2: nat): nat {
    Abs(FileAsWritten(bit2) - FileAsWritten(bit1)) + Abs(bit2 / 4 - bit1 / 4)
  }

  /** `total_distance(black, white)` as written: over the digits of the
      magnitudes of both words, the sum of the rank and (as computed) file
      differences. */
  function TotalDistance(black: bv32, white: bv32): nat {
    PairSum(Digits(Magnitude(black), 0), Digits(Magnitude(white), 0), DistanceAsWritten)
  }

  lemma DistanceAsWrittenSymmetric()
    ensures forall a, b :: DistanceAsWritten(a, b) == DistanceAsWritten(b, a)
  {}

  /** The distance is the same with the colours exchanged. */
  lemma TotalDistanceSymmetric(black: bv32, white: bv32)
    ensures TotalDistance(black, white) == TotalDistance(white, black)
  {
    DistanceAsWrittenSymmetric();
    PairSumSymmetric(Digits(Magnitude(black), 0), Digits(Magnitude(white), 0), DistanceAsWritten);
  }

  /** With no pieces of either colour there is nothing to add up. */
  lemma TotalDistanceEmpty(x: bv32)
    ensures TotalDistance(0, x) == 0 && TotalDistance(x, 0) == 0
  {
    PairSumNoColumns(Digits(Magnitude(x), 0), DistanceAsWritten);
  }

  /** Squares 0 and 5 are diagonal neighbours, yet total_distance puts them
      four apart: index 0 fails the 0x0f0f0f0f test although row 0 is even. */
  lemma TotalDistanceIndexTest()
    ensures Diagonal(0, 5) && TotalDistance(0x1, 0x20) == 4
  {
    Pow2Values();
    DigitsOfPower(1, 5, 0);
    assert Digits(1, 0) == [0];
    assert Digits(1, 5) == [5];
    assert AndNat(5, 0x0f0f0f0f) != 0;
    assert DistanceAsWritten(0, 5) == 4;
    assert PairSum([0], [5], DistanceAsWritten) == DistanceAsWritten(0, 5);
  }

  /** White on 30 and 31 is the negative int32 -2^30, whose magnitude has the
      single digit 30: the piece on 31 drops out of the sum. */
  lemma TotalDistanceMagnitude(black: bv32)
    ensures TotalDistance(black, 0xC000_0000) == TotalDistance(black, 0x4000_0000)
  {}

  // ------------------------------------------------ corrected distance

  /** Row of a square index (the source's rank). */
  function RankOf(i: nat): nat {
    i / 4
  }

  /** Column of a square index: dark cells are on odd columns in even rows. */
  function FileOf(i: nat): nat {
    if RankOf(i) % 2 == 0 then 2 * (i % 4) + 1 else 2 * (i % 4)
  }

  /** The grid distance between the cells of two square indices. */
  function CellDistance(i: nat, j: nat): nat {
    Abs(FileOf(j) - FileOf(i)) + Abs(RankOf(j) - RankOf(i))
  }

  /** Rank and file agree with the bitboard's Row and Col. */
  lemma CellOfSquare(s: Square)
    ensures RankOf(s as int) == Row(s) as int && FileOf(s as int) == Col(s) as int
  {}

  /** Diagonal neighbours are two cells apart, one row and one column. */
  lemma DiagonalAtDistanceTwo(s: Square, t: Square)
    requires Diagonal(s, t)
    ensures CellDistance(s as int, t as int) == 2
  {
    CellOfSquare(s);
    CellOfSquare(t);
    NextAsInt(Row(s), Row(t));
    NextAsInt(Row(t), Row(s));
    NextAsInt(Col(s), Col(t));
    NextAsInt(Col(t), Col(s));
  }

  lemma NextAsInt(a: bv32, b: bv32)
    requires a < 8 && b < 8
    ensures a == b + 1 <==> a as int == b as int + 1
  {}

  /** The intended sum of grid distances over every pair of a black and a
      white square, read from the unsigned words. */
  function ManhattanTotal(black: bv32, white: bv32): nat {
    PairSum(Digits(black as int, 0), Digits(white as int, 0), CellDistance)
  }

  lemma CellDistanceSymmetric()
    ensures forall a, b :: CellDistance(a, b) == CellDistance(b, a)
  {}

  lemma ManhattanTotalSymmetric(black: bv32, white: bv32)
    ensures ManhattanTotal(black, white) == ManhattanTotal(white, black)
  {
    CellDistanceSymmetric();
    PairSumSymmetric(Digits(black as int, 0), Digits(white as int, 0), CellDistance);
  }

  /** The corrected distance puts diagonal neighbours 0 and 5 two apart. */
  lemma ManhattanTotalNeighbours()
    ensures ManhattanTotal(0x1, 0x20) == 2
  {
    Pow2Values();
    assert Digits(1, 0) == [0];
    DigitsOfPower(1, 5, 0);
    assert Digits(1, 5) == [5];
    assert PairSum([0], [5], CellDistance) == CellDistance(0, 5);
  }

  /** The corrected distance counts the white piece on 31 as well as the one
      on 30. */
  lemma ManhattanTotalTopBit()
    ensures ManhattanTotal(0x1, 0xC000_0000)
            == ManhattanTotal(0x1, 0x4000_0000) + ManhattanTotal(0x1, 0x8000_0000)
  {
    Pow2Values();
    assert Digits(1, 0) == [0];
    DigitsOfPower(3, 30, 0);
    DigitsOfPower(1, 30, 0);
    DigitsOfPower(1, 31, 0);
    assert Digits(1, 31) == [31];
    assert Digits(3, 30) == [30, 31];
    assert Digits(1, 30) == [30];
    assert PairSum([0], [30, 31], CellDistance) == CellDistance(0, 30) + CellDistance(0, 31) by {
      assert [30, 31][1..] == [31];
    }
    assert PairSum([0], [30], CellDistance) == CellDistance(0, 30);
    assert PairSum([0], [31], CellDistance) == CellDistance(0, 31);
  }

  /** Doubling n moves every digit up by one. */
  lemma DigitsDouble(n: nat, i: nat)
    requires n > 0
    ensures Digits(2 * n, i) == Digits(n, i + 1)
  {
    assert (2 * n) % 2 == 0 && (2 * n) / 2 == n;
  }

  /** Shifting n left by k moves every digit up by k. */
  lemma {:induction false} DigitsOfPower(n: nat, k: nat, i: nat)
    requires n > 0
    ensures Digits(n * Pow2(k), i) == Digits(n, i + k)
    decreases k
  {
    if k > 0 {
      var m := n * Pow2(k - 1);
      assert n * Pow2(k) == 2 * m;
      DigitsDouble(m, i);
      DigitsOfPower(n, k - 1, i + 1);
    }
  }

  lemma Pow2Values()
    ensures Pow2(0) == 1 && Pow2(5) == 0x20
    ensures Pow2(30) == 0x4000_0000 && Pow2(31) == 0x8000_0000
  {
    assert Pow2(10) == 0x400;
    assert Pow2(15) == 0x8000;
    assert Pow2(20) == 0x10_0000;
    assert Pow2(25) == 0x200_0000;
  }

  // ------------------------------------------------------------ evaluate

  /** Twice a side's material: a man counts 2, a king 3 (one and a half). */
  function HalfMaterial(own: bv32, kings: bv32): nat {
    2 * PopCount(own) + PopCount(own & kings)
  }

  /** The early and middle game: some man is left or more than five pieces
      are. Men are counted as all pieces minus all kings. */
  predicate Midgame(black: bv32, white: bv32, kings: bv32) {
    var npieces: int := PopCount(black) + PopCount(white);
    var nmen: int := npieces - PopCount(kings);
    nmen != 0 || npieces > 5
  }

  /** Material difference scaled by the exchange factor (37 minus all
      material), five points a unit. */
  function MaterialTerm(black: bv32, white: bv32, kings: bv32): int {
    Trade(HalfMaterial(black, kings), HalfMaterial(white, kings))
  }

  /** `(mb - mw) * (37 - mb - mw) * 5` for halved materials, in quarters. */
  function Trade(mb: int, mw: int): int {
    (mb - mw) * (74 - mb - mw) * 5
  }

  /** The advancement term as Python parses it: `-` binds tighter than `&`,
      so white's word is subtracted from the mask before the masking. Only
      the low 20 bits survive the last mask, and those agree between 32-bit
      and 64-bit arithmetic. */
  function AdvancementTerm(black: bv32, white: bv32): int {
    (black & (0xfffff000 - white) & 0x000fffff) as int * 40
  }

  /** The central-kings term, parsed the same way. */
  function CentralTerm(black: bv32, white: bv32, kings: bv32): int {
    (black & kings & (0x00666600 - white) & kings & 0x00666600) as int * 80
  }

  /** Black pieces on black's back rank minus white pieces on white's. */
  function DefenceTerm(black: bv32, white: bv32): int {
    (PopCount(black & 0x0000000f) - PopCount(white & 0xf0000000)) * 40
  }

  function MidgameScore(black: bv32, white: bv32, kings: bv32): int {
    MaterialTerm(black, white, kings) + AdvancementTerm(black, white)
    + CentralTerm(black, white, kings) + DefenceTerm(black, white)
  }

  /** The squares of the two double corners. */
  const CORNERS: bv32 := 0x88000011

  /** Which total distance the endgame subtracts: `total_distance` as
      written, or the grid distance it evidently means. */
  datatype Metric = AsWritten | Grid

  function Distance(metric: Metric, black: bv32, white: bv32): nat {
    match metric
    case AsWritten => TotalDistance(black, white)
    case Grid => ManhattanTotal(black, white)
  }

  /** Both distances are the same with the colours exchanged. */
  lemma DistanceSymmetric(metric: Metric, black: bv32, white: bv32)
    ensures Distance(metric, white, black) == Distance(metric, black, white)
  {
    TotalDistanceSymmetric(black, white);
    ManhattanTotalSymmetric(black, white);
  }

  /** King advantage times (7.5 minus all pieces), minus the advantage times
      the total distance, plus the corner difference. */
  function EndgameScore(black: bv32, white: bv32, metric: Metric): int {
    Hunt(PopCount(black), PopCount(white), Distance(metric, black, white))
    + (PopCount(black & CORNERS) - PopCount(white & CORNERS)) * 200
  }

  /** The king-advantage part of the endgame score for piece counts nb, nw
      and total distance d. */
  function Hunt(nb: int, nw: int, d: int): int {
    (nb - nw) * (15 - 2 * nb - 2 * nw) * 40 - 4 * (nb - nw) * d
  }

  /** The score of the pieces alone, from black's point of view. */
  function PositionScore(black: bv32, white: bv32, kings: bv32, metric: Metric): int {
    if Midgame(black, white, kings) then MidgameScore(black, white, kings)
    else EndgameScore(black, white, metric)
  }

  /** Three points to the side to move. */
  function Tempo(side: Side): int {
    if side == Black then 12 else -12
  }

  /** The score from black's point of view, before orientation. */
  function BlackScore(b: Board, metric: Metric): int {
    PositionScore(b.black, b.white, b.kings, metric) + Tempo(b.side)
  }

  /** `evaluate(board)` for a search whose root side is `root`; with the
      metric AsWritten it is the program's evaluation, with Grid the same
      evaluation over the corrected distance. */
  function Evaluate(b: Board, root: Side, metric: Metric): int {
    if root == Black then BlackScore(b, metric) else -BlackScore(b, metric)
  }

  /** The two sides of a search see opposite scores of the same board, and
      black's root sees the black-perspective score. */
  lemma EvaluateOrientation(b: Board, metric: Metric)
    ensures Evaluate(b, White, metric) == -Evaluate(b, Black, metric)
    ensures Evaluate(b, Black, metric) == BlackScore(b, metric)
  {}

  /** Handing the move to the other side changes nothing but the tempo: 24
      quarter points (six points) in favour of the side to move. */
  lemma TempoSwing(b: Board, metric: Metric)
    ensures BlackScore(b.(side := Black), metric) == BlackScore(b.(side := White), metric) + 24
    ensures Evaluate(b.(side := White), White, metric) == Evaluate(b.(side := Black), White, metric) + 24
  {
    var p := PositionScore(b.black, b.white, b.kings, metric);
    TempoAdds(b.(side := Black), p, metric);
    TempoAdds(b.(side := White), p, metric);
  }

  /** The black-perspective score splits into the position and the tempo. */
  lemma TempoAdds(b: Board, p: int, metric: Metric)
    requires p == PositionScore(b.black, b.white, b.kings, metric)
    ensures BlackScore(b, metric) == p + Tempo(b.side)
  {}

  /** The board with the colours exchanged: black's pieces become white's and
      the other side is to move. */
  function SwapColours(b: Board): Board {
    Board(b.white, b.black, b.kings, Opponent(b.side))
  }

  lemma SwapColoursInvolution(b: Board)
    ensures SwapColours(SwapColours(b)) == b
    ensures Tempo(SwapColours(b).side) == -Tempo(b.side)
  {}

  /** The phase test only counts pieces, so it ignores colours. */
  lemma MidgameColourBlind(black: bv32, white: bv32, kings: bv32)
    ensures Midgame(white, black, kings) == Midgame(black, white, kings)
  {}

  /** The material term is antisymmetric in the colours. */
  lemma MaterialAntisymmetric(black: bv32, white: bv32, kings: bv32)
    ensures MaterialTerm(white, black, kings) == -MaterialTerm(black, white, kings)
  {
    TradeAntisymmetric(HalfMaterial(black, kings), HalfMaterial(white, kings));
  }

  lemma TradeAntisymmetric(mb: int, mw: int)
    ensures Trade(mw, mb) == -Trade(mb, mw)
  {
    assert (mw - mb) * (74 - mw - mb) == -((mb - mw) * (74 - mb - mw));
  }

  lemma HuntAntisymmetric(nb: int, nw: int, d: int)
    ensures Hunt(nw, nb, d) == -Hunt(nb, nw, d)
  {
    assert (nw - nb) * (15 - 2 * nw - 2 * nb) == -((nb - nw) * (15 - 2 * nb - 2 * nw));
    assert 4 * (nw - nb) * d == -(4 * (nb - nw) * d);
  }

  /** In the endgame the colour-swapped board scores the negation, with
      either distance: neither colour is favoured once only kings are left. */
  lemma EndgameAntisymmetric(b: Board, metric: Metric)
    requires !Midgame(b.black, b.white, b.kings)
    ensures BlackScore(SwapColours(b), metric) == -BlackScore(b, metric)
  {
    var p := PositionScore(b.black, b.white, b.kings, metric);
    var q := PositionScore(b.white, b.black, b.kings, metric);
    EndgamePositionAntisymmetric(b.black, b.white, b.kings, metric);
    TempoAdds(b, p, metric);
    TempoAdds(SwapColours(b), q, metric);
    SwapColoursInvolution(b);
  }

  lemma EndgamePositionAntisymmetric(black: bv32, white: bv32, kings: bv32, metric: Metric)
    requires !Midgame(black, white, kings)
    ensures PositionScore(white, black, kings, metric) == -PositionScore(black, white, kings, metric)
  {
    MidgameColourBlind(black, white, kings);
    EndgameScoreAntisymmetric(black, white, metric);
  }

  lemma EndgameScoreAntisymmetric(black: bv32, white: bv32, metric: Metric)
    ensures EndgameScore(white, black, metric) == -EndgameScore(black, white, metric)
  {
    DistanceSymmetric(metric, black, white);
    HuntAntisymmetric(PopCount(black), PopCount(white), Distance(metric, black, white));
  }

  /** The advancement term is not antisymmetric: a black man on 12 scores,
      the mirrored white man on 19 costs black nothing. */
  lemma AdvancementOneSided()
    ensures AdvancementTerm(0x1000, 0) == 0x1000 * 40
    ensures AdvancementTerm(0, 0x80000) == 0
  {}
}

=== FILE: gamerules.dfy ===
/**
 * The pure rules of the game driver: which answers `prompt` and
 * `prompt_list` accept and what they yield, the king masking of a custom
 * starting board, the draw test and the announced winner.
 *
 * `input()` becomes a given sequence of lines: a prompt yields the first
 * acceptable line, and nothing when the lines run out. There `input()` raises
 * EOFError, which the retry loops do not catch, so the program stops.
 * `prompt_list` receives each line already split at whitespace.
 */
module GameRules {
  import opened Bits
  import opened Bitboard
  import opened Options

  // ------------------------------------------------------------ int(text)

  predicate IsDigit(c: char) {
    '0' <= c <= '9'
  }

  predicate AllDigits(s: string) {
    forall i :: 0 <= i < |s| ==> IsDigit(s[i])
  }

  /** The ASCII characters `int()` strips: tab, line feed, vertical tab,
      form feed, carriage return, the four separators 0x1c-0x1f, and space. */
  predicate IsSpace(c: char) {
    c == ' ' || '\t' <= c <= '\r' || 0x1c as char <= c <= 0x1f as char
  }

  /** The text without leading and trailing white space. */
  function Strip(s: string): (r: string)
    ensures |r| > 0 ==> !IsSpace(r[0]) && !IsSpace(r[|r| - 1])
    decreases |s|
  {
    if |s| > 0 && IsSpace(s[0]) then Strip(s[1..])
    else if |s| > 0 && IsSpace(s[|s| - 1]) then Strip(s[..|s| - 1])
    else s
  }

  /** The decimal value of a string of digits. */
  function DigitsValue(s: string): nat
    requires AllDigits(s)
    decreases |s|
  {
    if |s| == 0 then 0
    else DigitsValue(s[..|s| - 1]) * 10 + (s[|s| - 1] as int - '0' as int)
  }

  /** Python's `int(text)` on decimal text: optional surrounding white space,
      an optional sign, then at least one digit; anything else raises
      ValueError, which is None here. */
  function ParseInt(text: string): Option<int> {
    var t := Strip(text);
    if |t| > 1 && (t[0] == '-' || t[0] == '+') && AllDigits(t[1..]) then
      var magnitude: int := DigitsValue(t[1..]);
      Some(if t[0] == '-' then -magnitude else magnitude)
    else if |t| > 0 && AllDigits(t) then Some(DigitsValue(t))
    else None
  }

  /** The decimal text of a natural number. */
  function ShowNat(n: nat): (r: string)
    ensures |r| > 0 && AllDigits(r)
  {
    var d := ['0' + (n % 10) as char];
    if n < 10 then d else ShowNat(n / 10) + d
  }

  /** The decimal text of an integer, as `str` writes it. */
  function ShowInt(v: int): string {
    if v < 0 then "-" + ShowNat(-v) else ShowNat(v)
  }

  lemma {:induction false} ShowNatValue(n: nat)
    ensures DigitsValue(ShowNat(n)) == n
  {
    var s := ShowNat(n);
    if n >= 10 {
      ShowNatValue(n / 10);
      assert s[..|s| - 1] == ShowNat(n / 10);
    }
  }

  /** Text with no white space at either end is its own strip. */
  lemma StripClean(s: string)
    requires |s| > 0 && !IsSpace(s[0]) && !IsSpace(s[|s| - 1])
    ensures Strip(s) == s
  {}

  /** Reading back the text of an integer gives the integer. */
  lemma ParseShowInt(v: int)
    ensures ParseInt(ShowInt(v)) == Some(v)
  {
    if v < 0 {
      ParseShowNegative(v);
    } else {
      ShowNatValue(v);
      StripClean(ShowNat(v));
    }
  }

  lemma ParseShowNegative(v: int)
    requires v < 0
    ensures ParseInt(ShowInt(v)) == Some(v)
  {
    var s := ShowInt(v);
    var digits := ShowNat(-v);
    ShowNatValue(-v);
    assert s == "-" + digits;
    assert s[1..] == digits;
    StripClean(s);
  }

  // ------------------------------------------------------------ prompt

  /** The selection rule of `prompt`: without options any integer up to 20
      (the AI time limit, negative ones included); with options an index
      into them. */
  predicate Accepts(options: nat, selection: int) {
    if options == 0 then selection <= 20 else 0 <= selection < options
  }

  predicate AcceptedLine(options: nat, line: string) {
    ParseInt(line).Some? && Accepts(options, ParseInt(line).value)
  }

  /** `prompt(message, options)` with `options` choices, reading `lines`. */
  function Prompt(lines: seq<string>, options: nat): (r: Option<int>)
    ensures r.None? <==> forall i :: 0 <= i < |lines| ==> !AcceptedLine(options, lines[i])
    ensures r.Some? ==> Accepts(options, r.value)
                        && exists i :: 0 <= i < |lines| && ParseInt(lines[i]) == r
                                      && forall k :: 0 <= k < i ==> !AcceptedLine(options, lines[k])
    decreases |lines|
  {
    if lines == [] then None
    else if AcceptedLine(options, lines[0]) then ParseInt(lines[0])
    else
      var r := Prompt(lines[1..], options);
      assert forall i :: 1 <= i < |lines| ==> lines[i] == lines[1..][i - 1];
      r
  }

  /** Answering with the text of an integer: without options it is taken
      exactly when it is at most 20, with options exactly when it indexes
      one. */
  lemma PromptOneAnswer(v: int, options: nat)
    ensures options == 0 ==> Prompt([ShowInt(v)], options) == (if v <= 20 then Some(v) else None)
    ensures options > 0 ==> Prompt([ShowInt(v)], options) == (if 0 <= v < options then Some(v) else None)
  {
    ParseShowInt(v);
  }

  /** A rejected line is skipped: the answer comes from the lines after it. */
  lemma PromptSkips(line: string, lines: seq<string>, options: nat)
    requires !AcceptedLine(options, line)
    ensures Prompt([line] + lines, options) == Prompt(lines, options)
  {
    assert ([line] + lines)[1..] == lines;
  }

  // ------------------------------------------------------------ prompt_list

  predicate SquareToken(token: string) {
    ParseInt(token).Some? && 0 <= ParseInt(token).value < 32
  }

  /** The squares of one line of tokens, or None when some token is not an
      integer in [0, 32): one bad token rejects the whole line. */
  function ParseSquares(tokens: seq<string>): (r: Option<seq<nat>>)
    ensures r.Some? <==> forall i :: 0 <= i < |tokens| ==> SquareToken(tokens[i])
    ensures r.Some? ==> |r.value| == |tokens|
                        && forall i :: 0 <= i < |tokens| ==> r.value[i] == ParseInt(tokens[i]).value < 32
    decreases |tokens|
  {
    if tokens == [] then Some([])
    else if !SquareToken(tokens[0]) then None
    else
      var rest := ParseSquares(tokens[1..]);
      assert forall i :: 1 <= i < |tokens| ==> tokens[i] == tokens[1..][i - 1];
      if rest.None? then None else Some([ParseInt(tokens[0]).value as nat] + rest.value)
  }

  /** `sum([2**space for space in spaces])`. */
  function ListValue(squares: seq<nat>): nat
    decreases |squares|
  {
    if squares == [] then 0 else Pow2(squares[0]) + ListValue(squares[1..])
  }

  /** `prompt_list(message)`, reading lines already split into tokens. */
  function PromptList(lines: seq<seq<string>>): (r: Option<nat>)
    ensures r.None? <==> forall i :: 0 <= i < |lines| ==> ParseSquares(lines[i]).None?
    ensures r.Some? ==> exists i :: 0 <= i < |lines| && ParseSquares(lines[i]).Some?
                                    && r.value == ListValue(ParseSquares(lines[i]).value)
                                    && forall k :: 0 <= k < i ==> ParseSquares(lines[k]).None?
    decreases |lines|
  {
    if lines == [] then None
    else if ParseSquares(lines[0]).Some? then Some(ListValue(ParseSquares(lines[0]).value))
    else
      var r := PromptList(lines[1..]);
      assert forall i :: 1 <= i < |lines| ==> lines[i] == lines[1..][i - 1];
      r
  }

  /** An empty line is accepted and names no square. */
  lemma PromptListEmptyLine(lines: seq<seq<string>>)
    ensures PromptList([[]] + lines) == Some(0)
  {}

  /** Bit s of a natural number. */
  predicate BitOf(n: nat, s: nat)
    decreases s
  {
    if s == 0 then n % 2 == 1 else BitOf(n / 2, s - 1)
  }

  /** Adding 2^x to a number whose bit x is clear sets bit x and nothing
      else. */
  lemma {:induction false} AddClearBit(n: nat, x: nat, s: nat)
    requires !BitOf(n, x)
    ensures BitOf(n + Pow2(x), s) <==> BitOf(n, s) || s == x
    decreases x
  {
    if x == 0 {
      if s > 0 {
        assert (n + 1) / 2 == n / 2;
      }
    } else if s > 0 {
      assert (n + Pow2(x)) / 2 == n / 2 + Pow2(x - 1);
      AddClearBit(n / 2, x - 1, s - 1);
    }
  }

  /** For distinct squares, bit s of the sum is set exactly when s was
      listed. */
  lemma {:induction false} ListValueBits(squares: seq<nat>, s: nat)
    requires forall i, j :: 0 <= i < j < |squares| ==> squares[i] != squares[j]
    ensures BitOf(ListValue(squares), s) <==> s in squares
    decreases |squares|
  {
    if squares == [] {
      BitOfZero(s);
    } else {
      var x := squares[0];
      var rest := squares[1..];
      ListValueBits(rest, s);
      ListValueBits(rest, x);
      assert forall k :: 0 <= k < |rest| ==> rest[k] == squares[k + 1];
      assert x !in rest;
      AddClearBit(ListValue(rest), x, s);
      assert squares == [x] + rest;
    }
  }

  lemma {:induction false} BitOfZero(s: nat)
    ensures !BitOf(0, s)
    decreases s
  {
    if s > 0 {
      BitOfZero(s - 1);
    }
  }

  /** A square listed twice is added twice: "3 3" names square 4. */
  lemma ListValueRepeatedSquare()
    ensures ListValue([3, 3]) == ListValue([4])
    ensures BitOf(ListValue([3, 3]), 4) && !BitOf(ListValue([3, 3]), 3)
  {
    assert ListValue([3, 3]) == 16 by {
      assert [3, 3][1..] == [3];
    }
    assert BitOf(16, 4);
  }

  /** The squares listed, as a bitboard word: the union of their bits. */
  function SquareSet(squares: seq<nat>): bv32
    requires forall i :: 0 <= i < |squares| ==> squares[i] < 32
    decreases |squares|
  {
    if squares == [] then 0
    else Bit(ToSquare(squares[0])) | SquareSet(squares[1..])
  }

  /** Whatever the repetitions, the set holds exactly the listed squares. */
  lemma {:induction false} SquareSetHas(squares: seq<nat>, s: Square)
    requires forall i :: 0 <= i < |squares| ==> squares[i] < 32
    ensures Has(SquareSet(squares), s) <==> s as nat in squares
    decreases |squares|
  {
    if squares != [] {
      var x := ToSquare(squares[0]);
      var rest := squares[1..];
      var w := SquareSet(squares);
      var r := SquareSet(rest);
      SquareSetCons(squares);
      SquareSetHas(rest, s);
      BitHas(x, s, r);
      assert Has(w, s) <==> x == s || Has(r, s);
      SameSquare(squares[0], s);
      assert (x == s) <==> (squares[0] == s as nat);
      assert squares == [squares[0]] + rest;
      assert (s as nat in squares) <==> (squares[0] == s as nat || s as nat in rest);
    }
  }

  lemma SquareSetCons(squares: seq<nat>)
    requires |squares| > 0 && forall i :: 0 <= i < |squares| ==> squares[i] < 32
    ensures SquareSet(squares) == Bit(ToSquare(squares[0])) | SquareSet(squares[1..])
  {}

  lemma SameSquare(n: nat, s: Square)
    requires n < 32
    ensures (ToSquare(n) == s) <==> (n == s as nat)
  {}

  lemma BitHas(x: Square, s: Square, rest: bv32)
    ensures Has(Bit(x) | rest, s) <==> x == s || Has(rest, s)
  {
    assert Has(Bit(x) | rest, s) == ((Bit(x) | rest) & Bit(s) != 0);
    assert Has(rest, s) == (rest & Bit(s) != 0);
  }

  /** Both readings of a line agree on which squares it names when no
      square is repeated. */
  lemma SquareSetMatchesSum(squares: seq<nat>, s: Square)
    requires forall i :: 0 <= i < |squares| ==> squares[i] < 32
    requires forall i, j :: 0 <= i < j < |squares| ==> squares[i] != squares[j]
    ensures Has(SquareSet(squares), s) <==> BitOf(ListValue(squares), s as nat)
  {
    SquareSetHas(squares, s);
    ListValueBits(squares, s as nat);
  }

  // ------------------------------------------------------------ the board

  /** `Bitboard((black, white, kings & (white | black), side))`: a king
      listed on an empty square is dropped. */
  function CustomBoard(black: bv32, white: bv32, kings: bv32, side: Side): (b: Board)
    ensures b.black == black && b.white == white && b.side == side
    ensures forall s: Square :: Has(b.kings, s) <==> Has(kings, s) && (Has(black, s) || Has(white, s))
  {
    var b := Board(black, white, kings & (white | black), side);
    assert forall s: Square :: Has(b.kings, s) <==> Has(kings, s) && (Has(black, s) || Has(white, s)) by {
      forall s: Square
        ensures Has(b.kings, s) <==> Has(kings, s) && (Has(black, s) || Has(white, s))
      {
        KingMask(black, white, kings, s);
      }
    }
    b
  }

  lemma KingMask(black: bv32, white: bv32, kings: bv32, s: Square)
    ensures Has(kings & (white | black), s) <==> Has(kings, s) && (Has(black, s) || Has(white, s))
  {
    HasAnd(kings, white | black, s);
    HasOr(white, black, s);
  }

  /** The kings of a custom board lie on occupied squares, and masking
      again changes nothing. */
  lemma CustomBoardKings(black: bv32, white: bv32, kings: bv32, side: Side)
    ensures CustomBoard(black, white, kings, side).kings & !(black | white) == 0
    ensures var b := CustomBoard(black, white, kings, side);
            CustomBoard(b.black, b.white, b.kings, b.side) == b
  {}

  /** A custom board from the three lists of squares. */
  function CustomBoardFromLists(black: seq<nat>, white: seq<nat>, kings: seq<nat>, side: Side): Board
    requires forall i :: 0 <= i < |black| ==> black[i] < 32
    requires forall i :: 0 <= i < |white| ==> white[i] < 32
    requires forall i :: 0 <= i < |kings| ==> kings[i] < 32
  {
    CustomBoard(SquareSet(black), SquareSet(white), SquareSet(kings), side)
  }

  /** On a custom board a square holds a king exactly when it was listed as
      a king and as a black or a white piece. */
  lemma CustomBoardFromListsKings(black: seq<nat>, white: seq<nat>, kings: seq<nat>, side: Side, s: Square)
    requires forall i :: 0 <= i < |black| ==> black[i] < 32
    requires forall i :: 0 <= i < |white| ==> white[i] < 32
    requires forall i :: 0 <= i < |kings| ==> kings[i] < 32
    ensures Has(CustomBoardFromLists(black, white, kings, side).kings, s)
            <==> s as nat in kings && (s as nat in black || s as nat in white)
  {
    SquareSetHas(black, s);
    SquareSetHas(white, s);
    SquareSetHas(kings, s);
  }

  /** For distinct squares the source's sum and the union name the same
      squares, and the sum has no bit past 31: the two words agree bit for
      bit. */
  lemma {:induction false} SumMatchesSet(squares: seq<nat>, s: nat)
    requires forall i :: 0 <= i < |squares| ==> squares[i] < 32
    requires forall i, j :: 0 <= i < j < |squares| ==> squares[i] != squares[j]
    ensures BitOf(ListValue(squares), s) <==> s < 32 && Has(SquareSet(squares), ToSquare(s))
  {
    ListValueBits(squares, s);
    if s < 32 {
      SquareSetHas(squares, ToSquare(s));
    }
  }

  /** When no list repeats a square, the board built from the three lists is,
      bit for bit, `Bitboard((black, white, kings & (white | black), side))`
      over the sums `prompt_list` returns. */
  lemma CustomBoardFromListsAsWritten(black: seq<nat>, white: seq<nat>, kings: seq<nat>, side: Side, s: nat)
    requires forall i :: 0 <= i < |black| ==> black[i] < 32
    requires forall i :: 0 <= i < |white| ==> white[i] < 32
    requires forall i :: 0 <= i < |kings| ==> kings[i] < 32
    requires forall i, j :: 0 <= i < j < |black| ==> black[i] != black[j]
    requires forall i, j :: 0 <= i < j < |white| ==> white[i] != white[j]
    requires forall i, j :: 0 <= i < j < |kings| ==> kings[i] != kings[j]
    ensures var b := CustomBoardFromLists(black, white, kings, side);
            var (nb, nw, nk) := (ListValue(black), ListValue(white), ListValue(kings));
            b.side == side
            && (BitOf(nb, s) <==> s < 32 && Has(b.black, ToSquare(s)))
            && (BitOf(nw, s) <==> s < 32 && Has(b.white, ToSquare(s)))
            && (BitOf(nk, s) && (BitOf(nw, s) || BitOf(nb, s)) <==> s < 32 && Has(b.kings, ToSquare(s)))
  {
    SumMatchesSet(black, s);
    SumMatchesSet(white, s);
    SumMatchesSet(kings, s);
    if s < 32 {
      CustomBoardFromListsKings(black, white, kings, side, ToSquare(s));
      SquareSetHas(black, ToSquare(s));
      SquareSetHas(white, ToSquare(s));
      SquareSetHas(kings, ToSquare(s));
    }
  }

  // ------------------------------------------------------------ is_draw

  /** The four centre squares 11, 12, 19 and 20. */
  const CENTRE: bv32 := 0x00181800

  /** `is_draw()`: one piece a side, both kings, the mover has more than one
      move (`moveCount` is the length of the move list the board reports)
      and the mover's piece is off the centre. */
  predicate IsDraw(b: Board, moveCount: nat) {
    var stuck := Own(b, b.side) & !CENTRE;
    PopCount(b.black) == 1 && PopCount(b.white) == 1
    && b.black & b.kings != 0 && b.white & b.kings != 0
    && moveCount > 1 && stuck != 0
  }

  /** A drawn position is a lone black king against a lone white king, the
      mover has a choice of moves, and the mover's king is not on one of the
      four centre squares. */
  lemma DrawShape(b: Board, moveCount: nat)
    requires IsDraw(b, moveCount)
    ensures SingleBit(b.black) && b.black & b.kings == b.black
    ensures SingleBit(b.white) && b.white & b.kings == b.white
    ensures moveCount >= 2
    ensures Own(b, b.side) & CENTRE == 0
  {
    PopCountOne(b.black);
    PopCountOne(b.white);
    SingleInside(b.black, b.kings);
    SingleInside(b.white, b.kings);
    SingleOutside(Own(b, b.side), CENTRE);
  }

  /** A single square meeting a set lies in it. */
  lemma SingleInside(x: bv32, y: bv32)
    requires SingleBit(x) && x & y != 0
    ensures x & y == x
  {}

  /** A single square not inside a set misses it. */
  lemma SingleOutside(x: bv32, y: bv32)
    requires SingleBit(x) && x & !y != 0
    ensures x & y == 0
  {}

  /** Conversely, a lone king each, the mover's off the centre and a choice
      of moves make a draw. */
  lemma DrawWhen(b: Board, s: Square, t: Square, moveCount: nat)
    requires b.black == Bit(s) && b.white == Bit(t)
    requires Has(b.kings, s) && Has(b.kings, t)
    requires !Has(CENTRE, if b.side == Black then s else t)
    requires moveCount > 1
    ensures IsDraw(b, moveCount)
  {
    HasDef(b.kings, s);
    HasDef(b.kings, t);
    BitIsSingle(s);
    BitIsSingle(t);
    PopCountOne(Bit(s));
    PopCountOne(Bit(t));
    var m := if b.side == Black then s else t;
    HasDef(CENTRE, m);
    assert Own(b, b.side) == Bit(m);
    NotSingle(CENTRE, Bit(m));
  }

  // ------------------------------------------------------------ winner

  /** Python's `~i`. */
  function Invert(i: int): int {
    -i - 1
  }

  /** `names[i]` with Python's negative indices counting from the end. */
  function PyIndex<T>(names: seq<T>, i: int): T
    requires -|names| <= i < |names|
  {
    if i < 0 then names[|names| + i] else names[i]
  }

  function SideIndex(side: Side): int {
    if side == Black then 0 else 1
  }

  /** `side_names[~self.board.side]` when the game ends. */
  function Winner(side: Side): Side {
    PyIndex([Black, White], Invert(SideIndex(side)))
  }

  /** The winner announced is the side not to move, the side that left its
      opponent without a move. */
  lemma WinnerIsOpponent(side: Side)
    ensures Winner(side) == Opponent(side)
    ensures Winner(side) != side
  {}
}

=== FILE: options.dfy ===
/**
 * An optional value: a preset board that may be absent, or the result of a
 * parse that may fail.
 */
module Options {
  datatype Option<T> = None | Some(value: T)
}
